=== FILE: README.md ===
# Nazara entity world, text sprite and software buffer, in Dafny

This project models three pieces of the Nazara engine as pure functions over
immutable state and proves what they promise.

- **The entity world** of the development kit (`Ndk::World`), modelled in
  `entity_world.dfy`:
  - a slot array of entity blocks;
  - a LIFO list of recycled ids;
  - a dense list of alive handles, with a back-index in every slot;
  - two bitsets: entities to kill and entities whose system membership is
    stale.

  `CreateEntity`, `KillEntity`, `GetEntity`, `Clear` and the two phases of
  `Update` are modelled. The kill phase does swap-and-pop removal from the
  alive list. The dirty phase reconciles every dirty entity with every
  system. The invariant `Consistent` ties the four structures together, and
  every operation except the source's `Clear` preserves it (see Findings).
- **The text sprite** of the graphics module (`NzTextSprite`), modelled in
  `glyph_layout.dfy`, `text_sprite.dfy` and `sprite_render.dfy`:
  - `SetText` registers the sprite with the atlases of the text's fonts. It
    counts the glyphs per atlas texture and gives each texture a contiguous
    range of quads. It then writes each glyph's texture coordinates into its
    texture's range, and its local corners in glyph order (see Findings).
  - `AddToRenderQueue` recomputes the final vertices when they are stale, and
    submits one batch per non-empty range.
  - Also modelled: `Clear`, `ClearAtlases`, `SetColor`, `InvalidateNode`, the
    three atlas callbacks, the copy constructor and the assignment operator.
- **The software buffer** of the utility module (`NzSoftwareBuffer`),
  modelled in `software_buffer.dfy`: a byte array guarded by a `mapped` flag,
  with `Create`, `Fill`, `Map`, `Unmap` and `IsHardware`.

`collections.dfy` holds the one shared notion, `Ascending`: the elements of a
set of naturals in increasing order. It gives the visiting order of:
- a bitset walked with `FindFirst`/`FindNext`;
- the sprite's atlas set and render-info map. Their container types are
  declared in a header that is not part of this model; the model assumes
  both are ordered by key, as a `std::set` and a `std::map` keyed by
  address are (see "## Left out").

Modelling conventions:
- Pointers to atlases, textures and entities are natural numbers.
- A call the sprite makes on an atlas (`AddListener` / `RemoveListener`) is
  returned as a `ListenerCall` value, in call order. The function
  `Registered` replays those calls on a multiset of registrations.
- Error logging becomes an `errorReported` flag in the result, except in the software buffer's `Create`, `Fill` and `Map`, where the false or null result the source returns already signals the error and the log text is not modelled.
- Checks compiled only into debug builds are a `debugChecks` parameter of
  the atlas callbacks.
- The software buffer is modelled with the safe-mode checks compiled in.
- Floating-point vertex data is abstracted:
  - a texture coordinate is the glyph's integer atlas rectangle, tagged with
    the corner the vertex samples;
  - a final vertex records the local vertex and the tint it was computed
    from (`Shaded`).

Three facts about the code shape the model:
- Texture ranges follow the render-info map's iteration order, not the
  order in which textures first appear in the text.
- `SetText` does not empty `m_renderInfos` before counting (see Findings).
- The layer-change rescale window starts at vertex `first`, so vertices of
  other textures can be touched (see Findings).

## Model

| member | source | states |
|---|---|---|
| Collections.Ascending | SDK/src/NDK/World.cpp:87 | a bitset walk visits every set id exactly once, in strictly increasing order |
| Collections.AscendingUnique | SDK/src/NDK/World.cpp:87 | the walk order is the only strictly increasing enumeration of the set, so any container iterated in key order visits its keys in this order |
| SoftwareBuffer.Create | src/Nazara/Utility/SoftwareBuffer.cpp:22-40 | a failed allocation returns false and keeps the old state; a successful one gives `size` bytes and an unmapped buffer |
| SoftwareBuffer.Fill | src/Nazara/Utility/SoftwareBuffer.cpp:47-60 | a fill of a mapped buffer is refused and changes nothing; otherwise bytes `[offset, offset+size)` become the data and every other byte is kept |
| SoftwareBuffer.IsHardware | src/Nazara/Utility/SoftwareBuffer.cpp:67-70 | a software buffer never reports itself as hardware |
| SoftwareBuffer.Map | src/Nazara/Utility/SoftwareBuffer.cpp:72-88 | a second map returns null and changes nothing; a first map points at `offset` and marks the buffer mapped without touching its bytes |
| SoftwareBuffer.Unmap | src/Nazara/Utility/SoftwareBuffer.cpp:90-103 | unmap always succeeds and leaves the buffer unmapped with the same bytes; an error is reported exactly when the buffer was not mapped |
| SoftwareBuffer.MapThenUnmap | src/Nazara/Utility/SoftwareBuffer.cpp:72-103 | map followed by unmap gives the original buffer back, with no error |
| SoftwareBuffer.MappedIsExclusive | src/Nazara/Utility/SoftwareBuffer.cpp:47-103 | while mapped, both a second map and a fill are refused without effect; after the unmap a fill is accepted again |
| SoftwareBuffer.FillThenMapReadsBack | src/Nazara/Utility/SoftwareBuffer.cpp:47-88 | the window seen through a later map's pointer holds exactly the filled bytes |
| SoftwareBuffer.CreateThenMapAndFill | src/Nazara/Utility/SoftwareBuffer.cpp:22-88 | a freshly created buffer can be mapped at any offset, and a fill inside its size is accepted and holds the data |
| SoftwareBuffer.DisjointFillsCommute | src/Nazara/Utility/SoftwareBuffer.cpp:47-60 | fills of disjoint ranges can be applied in either order |
| EntityWorld.AliveEnumeratesLive | SDK/src/NDK/World.cpp:42-49 | in a world whose slots and alive list index each other, the alive list holds every live id exactly once |
| EntityWorld.CreateEntity | SDK/src/NDK/World.cpp:24-50 | reuses the most recently freed id, or else mints the id equal to the slot count; the new id was dead and is now live, appended to the alive list with a matching back-index; every other id keeps its liveness; consistency is kept |
| EntityWorld.KillEntity | SDK/src/NDK/World.cpp:65-71 | a live entity is only marked for killing, and nothing else changes; an invalid handle is ignored |
| EntityWorld.GetEntity | SDK/src/NDK/World.cpp:73-82 | a live id yields its own handle; any other id yields the empty handle with an error reported |
| EntityWorld.Clear | SDK/src/NDK/World.cpp:52-63 | corrected clear: no id is live and every list and bitset is empty (including the free list), so the world is consistent; systems are kept |
| EntityWorld.ClearAsWritten | SDK/src/NDK/World.cpp:52-63 | the source's clear empties the slots, the alive list and both bitsets, but keeps the free list |
| EntityWorld.ClearAsWrittenLeavesDanglingFreeIds | SDK/src/NDK/World.cpp:24-63 | after the source's clear, a world with recycled ids is inconsistent: the next id `CreateEntity` pops has no slot |
| EntityWorld.ClearAsWrittenCounterexample | SDK/src/NDK/World.cpp:24-117 | create, kill and update from an empty world reaches a consistent world with free list `[0]`, which the source's clear makes inconsistent |
| EntityWorld.KillOne | SDK/src/NDK/World.cpp:89-115 | one kill step recycles the id, makes it dead and removes exactly it from the alive list by moving the last handle into its place and patching that entity's back-index; the index invariant is kept |
| EntityWorld.KillAll | SDK/src/NDK/World.cpp:87-116 | killing a list of distinct live ids appends them to the free list in order and removes exactly them from the live set and the alive list |
| EntityWorld.KillPhase | SDK/src/NDK/World.cpp:87-117 | the kill phase frees the marked ids in ascending order, removes exactly them from the live set and the alive list, clears the marks and keeps consistency |
| EntityWorld.ReconcileSystem | SDK/src/NDK/World.cpp:131-143 | one system ends up holding the entity exactly when its filter wants it, and nothing else changes; no notification when the two already agree, otherwise exactly one: `RemoveEntity` for a member its filter rejects, `AddEntity` for a non-member its filter accepts |
| EntityWorld.ReconcileEntity | SDK/src/NDK/World.cpp:129-144 | every system ends up holding the entity exactly when its filter wants it; other memberships are kept; if all systems already agree there is no change and no notification |
| EntityWorld.ReconcileEntityNotifies | SDK/src/NDK/World.cpp:129-144 | system `n` is told to add the entity exactly when it did not hold it and its filter accepts it, and to remove it exactly when it held it and its filter rejects it |
| EntityWorld.DirtyAll | SDK/src/NDK/World.cpp:120-146 | after the dirty loop, every live listed entity is held by exactly the systems that want it; every other membership is as before; only systems change |
| EntityWorld.DirtyAllConvergedIsNoop | SDK/src/NDK/World.cpp:120-146 | re-evaluating entities that already agree with every system changes nothing and notifies nobody |
| EntityWorld.DirtyPhase | SDK/src/NDK/World.cpp:120-147 | the dirty phase keeps the entity bookkeeping and the filters, clears the dirty marks and keeps consistency |
| EntityWorld.DirtyPhaseReconciles | SDK/src/NDK/World.cpp:120-147 | the dirty phase reconciles exactly the marked entities that are alive |
| EntityWorld.Update | SDK/src/NDK/World.cpp:84-148 | update frees the killed ids in ascending order; exactly the unkilled ids stay live; both bitsets end empty; consistency is kept |
| EntityWorld.UpdateReconciles | SDK/src/NDK/World.cpp:84-148 | after update, every surviving dirty entity agrees with every system, and an entity that was not dirty keeps its memberships |
| EntityWorld.UpdateConverges | SDK/src/NDK/World.cpp:84-148 | if every clean live entity already agrees with every system, then after update every live entity does |
| EntityWorld.UpdateIsIdempotent | SDK/src/NDK/World.cpp:84-148 | a second update with no mutation in between changes nothing and notifies nobody |
| EntityWorld.KillIsDeferred | SDK/src/NDK/World.cpp:65-117 | right after a kill the entity is still found and listed; after update it is gone, its id on the free list |
| EntityWorld.KilledIdIsReused | SDK/src/NDK/World.cpp:24-117 | kill one entity and update: the next create returns that id |
| GlyphLayout.UVOrderFollowsVertices | src/Nazara/Graphics/TextSprite.cpp:213-220 | for an unrotated glyph, vertex `j` samples the rectangle corner at column `j % 2`, row `j / 2` |
| GlyphLayout.FlippedIsQuarterTurn | src/Nazara/Graphics/TextSprite.cpp:221-228 | a rotated glyph samples, at every vertex, the quarter turn of the unrotated corner, and a quarter turn has order four |
| GlyphLayout.UVCornersArePermutation | src/Nazara/Graphics/TextSprite.cpp:213-228 | both corner orders visit each of the four rectangle corners exactly once |
| GlyphLayout.TexturesAreUsed | src/Nazara/Graphics/TextSprite.cpp:148-162 | a texture is among the text's textures exactly when at least one glyph is on it |
| GlyphLayout.CountGlyphsCounts | src/Nazara/Graphics/TextSprite.cpp:146-162 | the counting loop adds each texture's glyph count to the count already in the map, and keeps the start |
| GlyphLayout.AssignRangesChain | src/Nazara/Graphics/TextSprite.cpp:164-174 | the index loop resets every count to zero; it starts the first range at the running index and each later range where the previous one ends; the last range ends at the sum of the counts |
| GlyphLayout.Assigned | src/Nazara/Graphics/TextSprite.cpp:146-174 | after counting and assignment the map holds the old keys plus the text's textures, all with a zero count |
| GlyphLayout.TiledDisjoint | src/Nazara/Graphics/TextSprite.cpp:164-174 | ranges of two different textures do not overlap |
| GlyphLayout.TiledCovers | src/Nazara/Graphics/TextSprite.cpp:164-174 | every quad of the text lies in the range of some texture |
| GlyphLayout.RanksDiffer | src/Nazara/Graphics/TextSprite.cpp:212 | two glyphs on the same texture have different ranks, the earlier one lower |
| GlyphLayout.RankBelowCount | src/Nazara/Graphics/TextSprite.cpp:212 | a glyph's rank on its texture is below that texture's glyph count, so its quad lies in its texture's range |
| GlyphLayout.SetTexCoords | src/Nazara/Graphics/TextSprite.cpp:212-228 | the four vertices of the glyph's quad receive its texture coordinates; their colour and position and every other vertex are kept |
| GlyphLayout.SetLocals | src/Nazara/Graphics/TextSprite.cpp:192-196 | the four local vertices at the base receive the glyph's corners and colour; the rest are kept |
| GlyphLayout.PlacedCounts | src/Nazara/Graphics/TextSprite.cpp:180-232 | the placement loop leaves each range's start unchanged and raises its count by the number of glyphs on its texture |
| GlyphLayout.PlacedAt | src/Nazara/Graphics/TextSprite.cpp:180-232 | corrected placement (locals in texture slots): when the ranges have room and do not overlap, every glyph's corners end up in its slot: range start plus the glyphs already placed on its texture |
| GlyphLayout.PlaceFrame | src/Nazara/Graphics/TextSprite.cpp:180-232 | corrected placement (locals in texture slots): a vertex outside every slot the loop writes is left unchanged |
| GlyphLayout.PlacedShade | src/Nazara/Graphics/TextSprite.cpp:198-228 | placement writes only texture coordinates into the final vertices, never their colour or position |
| GlyphLayout.FreshAssignment | src/Nazara/Graphics/TextSprite.cpp:142-174 | starting from an empty map, counted ranges tile the text's quads exactly, in the map's key order (taken to be ascending) |
| GlyphLayout.FreshRoom | src/Nazara/Graphics/TextSprite.cpp:142-212 | starting from an empty map, every glyph's slot fits in arrays resized to four vertices per glyph |
| GlyphLayout.PlacedFromStart | src/Nazara/Graphics/TextSprite.cpp:212 | corrected placement (locals in texture slots): glyph `i` is written at quad `first + rank`, where rank counts the earlier glyphs on its texture |
| GlyphLayout.FreshLayout | src/Nazara/Graphics/TextSprite.cpp:142-232 | corrected placement (locals in texture slots): a fresh layout puts every glyph's corners and texture coordinates in its quad, inside its texture's range |
| GlyphLayout.FreshLayoutTiles | src/Nazara/Graphics/TextSprite.cpp:142-232 | a fresh layout's ranges are exactly the used textures; each is as long as its glyph count; together they tile the text's quads |
| GlyphLayout.FreshLayoutKeepsShade | src/Nazara/Graphics/TextSprite.cpp:198-228 | a fresh layout does not touch the colour and position of the final vertices |
| GlyphLayout.LaidQuadsDistinct | src/Nazara/Graphics/TextSprite.cpp:212 | two glyphs of a laid-out text never share a quad |
| TextSprites.RemovalsUnregister | src/Nazara/Graphics/TextSprite.cpp:260-261 | one `RemoveListener` per atlas withdraws exactly one registration with each |
| TextSprites.AdditionsRegister | src/Nazara/Graphics/TextSprite.cpp:37-38 | one `AddListener` per atlas adds exactly one registration with each |
| TextSprites.ClearAtlases | src/Nazara/Graphics/TextSprite.cpp:258-264 | each held atlas is sent exactly one `RemoveListener`, and no other call is made; the atlas set ends empty and nothing else changes |
| TextSprites.ClearAtlasesUnregisters | src/Nazara/Graphics/TextSprite.cpp:258-264 | after `ClearAtlases` the sprite is registered with no atlas, which matches its empty atlas set |
| TextSprites.ListenTo | src/Nazara/Graphics/TextSprite.cpp:134-140 | the atlas set gains every font's atlas, and `AddListener` goes only to atlases not yet held |
| TextSprites.ListenToRegisters | src/Nazara/Graphics/TextSprite.cpp:134-140 | the registration loop registers exactly once with each newly inserted atlas |
| TextSprites.Resize | src/Nazara/Graphics/TextSprite.cpp:143-144 | resizing gives the requested length and keeps the prefix |
| TextSprites.TextLayout | src/Nazara/Graphics/TextSprite.cpp:142-232 | corrected placement (locals in texture slots): the laid-out arrays hold four vertices per glyph, and the resulting sprite shows the text |
| TextSprites.SetText | src/Nazara/Graphics/TextSprite.cpp:130-238 | corrected `SetText`: the atlas set is exactly the fonts' atlases; the arrays hold four vertices per glyph; the sprite shows the text (every glyph in its quad, ranges tiling the quads); both stale flags are set and the bounds are taken from the drawer |
| TextSprites.SetTextListens | src/Nazara/Graphics/TextSprite.cpp:130-140 | after `SetText` the sprite is registered exactly once with every atlas it holds, and with no other |
| TextSprites.SetTextUnregistersFirst | src/Nazara/Graphics/TextSprite.cpp:130-140 | every `RemoveListener` of `SetText` comes before every `AddListener` |
| TextSprites.GlyphOrderLocals | src/Nazara/Graphics/TextSprite.cpp:192-196 | the source writes glyph `i`'s local corners at vertices `4i` to `4i+3` |
| TextSprites.SetTextAsWritten | src/Nazara/Graphics/TextSprite.cpp:130-238 | the source's `SetText` stays in bounds exactly when every glyph's slot fits the resized arrays; then the atlas set is the fonts' atlases, the tint is kept, the bounds come from the drawer and both stale flags are set; the ranges are the old keys plus the text's textures, each starting where the count-and-assign pass put it (old counts included) and as long as its glyph count; the local vertices are in glyph order |
| TextSprites.SetTextAsWrittenListens | src/Nazara/Graphics/TextSprite.cpp:130-140 | after the source's `SetText` the sprite is registered exactly once with every atlas it holds, and with no other |
| TextSprites.SetTextAsWrittenFromEmpty | src/Nazara/Graphics/TextSprite.cpp:130-238 | on a sprite with no ranges, the source's `SetText` differs from the corrected one only in where the local vertices go |
| TextSprites.StaleRangesOverflow | src/Nazara/Graphics/TextSprite.cpp:153-174 | one glyph on texture 1, then one glyph on texture 2: the second `SetText` writes texture coordinates past the resized vertex array |
| TextSprites.Clear | src/Nazara/Graphics/TextSprite.cpp:61-68 | clear drops every range, vertex and atlas and unregisters from each atlas once; tint, bounds and stale flags are kept |
| TextSprites.SetColor | src/Nazara/Graphics/TextSprite.cpp:103-107 | only the tint changes, and the final vertices become stale |
| TextSprites.InvalidateVertices | src/Nazara/Graphics/TextSprite.cpp:93-96 | only the vertices' stale flag changes |
| TextSprites.InvalidateNode | src/Nazara/Graphics/TextSprite.cpp:266-272 | only the two stale flags change, and both are set |
| TextSprites.OnAtlasCleared | src/Nazara/Graphics/TextSprite.cpp:274-290 | a call from an atlas the sprite does not hold is reported and ignored when debug checks are on; otherwise, as `Clear` does, ranges, final and local vertices and atlases are dropped and every registration withdrawn, while tint, bounds and both stale flags are kept; the callback always returns false |
| TextSprites.OnAtlasReleased | src/Nazara/Graphics/TextSprite.cpp:333-347 | a call from an atlas the sprite does not hold is reported and ignored when debug checks are on; otherwise, as `Clear` does, ranges, final and local vertices and atlases are dropped and every registration withdrawn, while tint, bounds and both stale flags are kept |
| TextSprites.Rekey | src/Nazara/Graphics/TextSprite.cpp:325-327 | the old layer's range moves to the new layer and the other ranges are kept; if the new layer already had a range, the map insert leaves that range and drops the old one |
| TextSprites.RekeyRoundTrip | src/Nazara/Graphics/TextSprite.cpp:325-327 | moving a range to an unused layer and back restores the map |
| TextSprites.RescaleUVs | src/Nazara/Graphics/TextSprite.cpp:318-323 | the rescale loop rescales the texture coordinates of exactly the vertices in its window and keeps everything else |
| TextSprites.OnAtlasLayerChange | src/Nazara/Graphics/TextSprite.cpp:292-331 | a call from an atlas the sprite does not hold is reported and refused when debug checks are on; an unused layer changes nothing; a used layer has its range rekeyed and only the vertices and ranges change |
| TextSprites.OnAtlasLayerChangeAsWritten | src/Nazara/Graphics/TextSprite.cpp:292-331 | the source's callback: a foreign atlas is reported and refused under debug checks; otherwise the result is true and no call is made; an unused layer changes nothing; a used layer is rekeyed, only the vertices and ranges change, and vertex `k` is rescaled exactly when `first <= k < first + 4 * count` |
| TextSprites.LayerChangeRescalesOwnQuads | src/Nazara/Graphics/TextSprite.cpp:318-323 | corrected callback: a vertex's texture coordinate is rescaled exactly when its quad lies in the old layer's range; colour and position are untouched |
| TextSprites.LayerChangeAsWrittenMissesQuads | src/Nazara/Graphics/TextSprite.cpp:318 | with the window at vertex `first` rather than `4 * first`, the source rescales a vertex outside the layer's range and misses the last vertex inside it |
| TextSprites.CopyOf | src/Nazara/Graphics/TextSprite.cpp:22-39 | a copy equals the original and registers exactly once with each of its atlases |
| TextSprites.AssignAsWritten | src/Nazara/Graphics/TextSprite.cpp:240-256 | the source's assignment takes everything but the final vertices from the source sprite, and sets both stale flags |
| TextSprites.Assign | src/Nazara/Graphics/TextSprite.cpp:240-256 | corrected assignment: the sprite becomes the source sprite with both flags stale, and its registrations move to the new atlas set |
| TextSprites.AssignAsWrittenKeepsRegistrations | src/Nazara/Graphics/TextSprite.cpp:240-256 | when the atlas sets differ, the source's assignment leaves the sprite registered with atlases it no longer holds |
| TextSprites.AssignAsWrittenLeavesVerticesShort | src/Nazara/Graphics/TextSprite.cpp:249-253 | assigning a shown text to an empty sprite leaves ranges that point past its final vertex array |
| TextSprites.AssignShows | src/Nazara/Graphics/TextSprite.cpp:240-256 | after the corrected assignment the sprite shows whatever the source sprite showed |
| SpriteRendering.ShadeRange | src/Nazara/Graphics/TextSprite.cpp:391-403 | the inner loops recompute every corner of the range from the local vertex at the same position and the tint, keeping its texture coordinate; other vertices are kept |
| SpriteRendering.ShadeRangesAt | src/Nazara/Graphics/TextSprite.cpp:387-404 | after the walk, a vertex covered by any walked range is computed from its local vertex and the tint; any other vertex is kept |
| SpriteRendering.UpdateVertices | src/Nazara/Graphics/TextSprite.cpp:376-407 | recomputation marks the vertices up to date and changes nothing but the final vertices |
| SpriteRendering.UpdateVerticesShades | src/Nazara/Graphics/TextSprite.cpp:376-407 | after recomputation, a vertex in some range holds its local vertex under the sprite's tint with its texture coordinate kept; a vertex in no range is unchanged |
| SpriteRendering.AddToRenderQueue | src/Nazara/Graphics/TextSprite.cpp:46-59 | stale vertices are recomputed first, up-to-date ones left alone; every batch is the whole non-empty range of its texture, read from the final vertices |
| SpriteRendering.BatchesOfComplete | src/Nazara/Graphics/TextSprite.cpp:51-58 | every non-empty range the loop walks is submitted |
| SpriteRendering.BatchesOfOrdered | src/Nazara/Graphics/TextSprite.cpp:51-58 | when the textures are walked in increasing order, batches are submitted in increasing texture order |
| SpriteRendering.AddToRenderQueueBatches | src/Nazara/Graphics/TextSprite.cpp:46-59 | a texture is submitted exactly when it has a non-empty range, once; under the assumed key order of the map, in increasing texture order |
| SpriteRendering.RenderIsIdempotent | src/Nazara/Graphics/TextSprite.cpp:46-59 | drawing twice in a row submits the same batches and leaves the same sprite |
| SpriteRendering.ClearedSpriteDrawsNothing | src/Nazara/Graphics/TextSprite.cpp:46-68 | a cleared sprite submits no batch |
| SpriteRendering.DrawnVerticesTinted | src/Nazara/Graphics/TextSprite.cpp:387-404 | when the vertices were stale, every submitted vertex carries the sprite's tint |
| SpriteRendering.InvalidateNodeRecomputes | src/Nazara/Graphics/TextSprite.cpp:266-272 | after `InvalidateNode`, the next draw recomputes every vertex in a range from its local vertex and the current tint, even if the old vertices were marked up to date, and every submitted vertex carries that tint |
| SpriteRendering.SetColorRetints | src/Nazara/Graphics/TextSprite.cpp:103-107 | after `SetColor`, every submitted vertex carries the new tint |
| SpriteRendering.CoveredVertexDrawn | src/Nazara/Graphics/TextSprite.cpp:46-57 | a vertex in a range is drawn in its texture's batch, at its distance from the range start, computed from its local vertex and the tint |
| SpriteRendering.GlyphDrawn | src/Nazara/Graphics/TextSprite.cpp:46-57 | corner `j` of glyph `i` of a shown text is drawn, with the glyph's own local vertex and texture coordinate under the tint, at position `4 * rank + j` of its texture's batch |
| SpriteRendering.ShownBatchesAreTextures | src/Nazara/Graphics/TextSprite.cpp:46-58 | a shown text submits one batch per texture it uses, and no other |
| SpriteRendering.SetTextDrawsEveryGlyph | src/Nazara/Graphics/TextSprite.cpp:130-238 | after the corrected `SetText`, every corner of every glyph is drawn with its own local vertex and texture coordinate under the tint |
| SpriteRendering.LocalQuadMismatchExample | src/Nazara/Graphics/TextSprite.cpp:192-196 | with local vertices written in glyph order, a text whose first glyph is on texture 5 and whose second is on texture 2 draws, at the head of texture 2's batch, the second glyph's texture coordinate with the first glyph's local vertex |

## Left out

- `World::AddDefaultSystems`, the destructor, and the internals of `Entity::Create`, `Entity::Destroy` and the systems' `AddEntity`/`RemoveEntity`: their code is not part of this model. A system is its membership set and its filter, and a membership change is returned as a `Notification`.
- `World::IsEntityIdValid` and `IsEntityValid` live in a header that is not part of this model. An id is taken to be valid when it has a slot and the slot's entity is alive.
- The `NazaraAssert`s of `World::Update` are preconditions of the kill phase (`Consistent`). Growth of the bitsets (`UnboundedSet`) is not modelled; sets are unbounded.
- EntityWorld.DirtyAll: the membership changes are stated as a relation between the systems before and after. Over a whole list of entities the notifications are bounded only to the listed entities and the system range, and pinned to none only for entities that already agree with every system (`DirtyAllConvergedIsNoop`); for one entity, a system's add or remove is present exactly when its membership and filter disagree (`ReconcileEntityNotifies`).
- SoftwareBuffer.Create: the allocator's failure is a parameter. The new bytes are modelled as zeros and the contract says nothing about them, because the source leaves them uninitialised.
- TextSprites.OnAtlasLayerChangeAsWritten: requires the rescale window `[first, first + 4 * count)` to lie inside the final vertex array. Past its end the source writes out of bounds, which is undefined behaviour in C++.
- SoftwareBuffer.Fill: requires the copy to stay inside the buffer and the data. The source copies unchecked, so any other call is undefined behaviour in C++.
- Builds without the safe-mode checks, where a fill or map of a mapped buffer proceeds, are not modelled.
- `Destroy` and `GetPointer` of the software buffer are memory management and a raw-pointer accessor; they are not modelled.
- 32-bit wrap-around of `offset + size` and of the vertex index arithmetic is not modelled: integers are unbounded.
- The float normalisation of the atlas rectangle by the texture size, and the scale factor of a layer change, are not computed. A coordinate records its rectangle and corner, and a rescaled one records the two layers.
- The transform of local positions into the scene (`m_transformMatrix`, the scene's right and down vectors) and the multiplication of colours are not computed. A final vertex records the local vertex and tint it comes from.
- The bounding volume (`UpdateBoundingVolume`, `GetBoundingVolume`) is not modelled beyond its stale flag. Neither are the material (`SetDefaultMaterial`, `SetMaterial`, `IsDrawable`), the scene node parts of the copy and assignment (parent, `Register`, `Unregister`), logging text, or the default constructor.
- The render queue's `AddSprites` is recorded as a `Batch` value, and the material is not part of it.
- GlyphLayout.Assigned: the range walk visits the texture keys in ascending order. The type of `m_renderInfos` is declared in a header that is not part of this model; ascending order is what a `std::map` keyed by texture address gives. Every "ascending texture order" claim rests on this, and so do the witness inputs of the second and third Findings rows. The tiling, cover and every-glyph-drawn results (`AssignRangesChain`, `ShadeRangesAt`, `BatchesOfComplete`) hold for any duplicate-free key order.
- SpriteRendering.AddToRenderQueueBatches: the batches follow the same assumed ascending key order of `m_renderInfos`; the atlas set `m_atlases` is likewise taken to be walked in ascending order.
- GlyphLayout.PlaceGlyphs writes each glyph's local vertices into its texture slot, as the corrected `SetText` does. The source's local-vertex order is modelled separately (`GlyphOrderLocals`, `SetTextAsWritten`).
- Glyph textures and font atlases are taken to be non-null. With a null atlas or texture the source dereferences a null pointer (the glyph counting, `GetSize` and `AddListener`); ids here are any natural number and no id stands for null.
- The drawer's fonts are reduced to their atlases, and a glyph's texture is the atlas layer it sits on.

## Findings

| source | as written | input that shows it | evidently intended | confidence | as-written member | corrected member |
|---|---|---|---|---|---|---|
| SDK/src/NDK/World.cpp:52-63 | `Clear` empties the entity slots but not the free list | create an entity, kill it, update (free list `[0]`), clear, then create: the id popped from the free list has no slot | clear the free list together with the slots | high, not executed | EntityWorld.ClearAsWrittenCounterexample | EntityWorld.Clear |
| src/Nazara/Graphics/TextSprite.cpp:192-196 | local vertices are written at `i*4`, in glyph order, while texture coordinates go to `first*4 + count*4`, in texture order; `UpdateVertices` pairs local vertex `k` with final vertex `k` | two glyphs, the first on texture 5 and the second on texture 2: quad 0 gets the second glyph's texture coordinates but the first glyph's position | write the local vertices at the same slot as the texture coordinates | high, not executed | SpriteRendering.LocalQuadMismatchExample | SpriteRendering.SetTextDrawsEveryGlyph |
| src/Nazara/Graphics/TextSprite.cpp:153-174 | `SetText` never empties the ranges of the previous text, so old counts add to the new ones | `SetText` with one glyph on texture 1, then `SetText` with one glyph on texture 2: texture 2's range starts at quad 1 of a one-quad array | start each text from an empty range map | high, not executed | TextSprites.StaleRangesOverflow | TextSprites.SetText |
| src/Nazara/Graphics/TextSprite.cpp:240-256 | the assignment operator copies the atlas set without moving the listener registrations | assign a sprite holding atlas 2 to one holding atlas 1: the target stays registered with atlas 1 and not with atlas 2 | unregister from the old atlases and register with the new ones, as the copy constructor does | medium, not executed | TextSprites.AssignAsWrittenKeepsRegistrations | TextSprites.Assign |
| src/Nazara/Graphics/TextSprite.cpp:249-253 | the assignment operator does not copy the final vertices, which alone hold the texture coordinates | assign a sprite showing one glyph to an empty sprite: its ranges point past its empty vertex array | copy the final vertices too | medium, not executed | TextSprites.AssignAsWrittenLeavesVerticesShort | TextSprites.AssignShows |
| src/Nazara/Graphics/TextSprite.cpp:318 | the rescale window starts at vertex `indices.first` rather than `indices.first*4` | a range starting at quad 1 with one quad: vertex 1 (outside the range) is rescaled and vertex 7 (inside) is not | start the window at the range's first vertex, `indices.first*4` | high, not executed | TextSprites.LayerChangeAsWrittenMissesQuads | TextSprites.LayerChangeRescalesOwnQuads |

=== FILE: collections.dfy ===
/** Ordered enumeration of finite sets of identifiers.

    The engine walks two kinds of id-keyed containers in ascending key order:
    the bitsets of the entity world (FindFirst / FindNext) and the ordered
    containers of the text sprite (atlas set, render-info map). Both are
    modelled as finite sets of naturals enumerated by `Ascending`.
 */
module Collections {

  /** No element occurs twice. */
  predicate Distinct<T(==)>(xs: seq<T>) {
    forall i, j :: 0 <= i < j < |xs| ==> xs[i] != xs[j]
  }

  /** Each element is smaller than every later one. */
  predicate StrictlyIncreasing(xs: seq<nat>) {
    forall i, j :: 0 <= i < j < |xs| ==> xs[i] < xs[j]
  }

  /** `m` is the smallest element of `s`. */
  predicate IsLeast(m: nat, s: set<nat>) {
    m in s && forall y :: y in s ==> m <= y
  }

  lemma {:induction false} LeastExists(s: set<nat>)
    requires s != {}
    ensures exists m :: IsLeast(m, s)
  {
    var x :| x in s;
    if s == {x} {
      assert IsLeast(x, s);
    } else {
      LeastExists(s - {x});
      var m :| IsLeast(m, s - {x});
      var least := if x < m then x else m;
      forall y | y in s ensures least <= y {
        if y != x {
          assert y in s - {x};
        }
      }
      assert IsLeast(least, s);
    }
  }

  /** The smallest element of a non-empty set (a bitset's FindFirst). */
  function Least(s: set<nat>): (m: nat)
    requires s != {}
    ensures m in s
    ensures forall y :: y in s ==> m <= y
  {
    LeastExists(s);
    var m :| IsLeast(m, s);
    m
  }

  /** The elements of `s` in ascending order: the visiting order of a
      FindFirst / FindNext walk over a bitset, or of an ordered container. */
  function Ascending(s: set<nat>): (r: seq<nat>)
    ensures |r| == |s|
    ensures forall x :: x in s <==> x in r
    ensures StrictlyIncreasing(r)
    decreases |s|
  {
    if s == {} then []
    else
      var m := Least(s);
      [m] + Ascending(s - {m})
  }

  lemma IncreasingIsDistinct(xs: seq<nat>)
    requires StrictlyIncreasing(xs)
    ensures Distinct(xs)
  {
  }

  /** The head of a non-empty strictly increasing sequence is its least element. */
  lemma HeadIsLeast(xs: seq<nat>, y: nat)
    requires StrictlyIncreasing(xs) && y in xs
    ensures xs[0] <= y
  {
    var k :| 0 <= k < |xs| && xs[k] == y;
    assert k == 0 || xs[0] < xs[k];
  }

  /** Dropping the head of a strictly increasing sequence removes exactly that element. */
  lemma TailElements(xs: seq<nat>, x: nat)
    requires StrictlyIncreasing(xs) && |xs| > 0
    ensures x in xs[1..] <==> x in xs && x != xs[0]
  {
    if x in xs && x != xs[0] {
      var k :| 0 <= k < |xs| && xs[k] == x;
      assert xs[1..][k - 1] == x;
    }
  }

  /** An ascending enumeration is unique: any strictly increasing sequence
      holding exactly the elements of `s` is `Ascending(s)`. */
  lemma {:induction false} AscendingUnique(s: set<nat>, xs: seq<nat>)
    requires StrictlyIncreasing(xs)
    requires forall x :: x in s <==> x in xs
    ensures xs == Ascending(s)
    decreases |xs|
  {
    if xs == [] {
      assert s == {};
    } else {
      assert xs[0] in s;
      var m := Least(s);
      HeadIsLeast(xs, m);
      assert m <= xs[0];
      var rest := xs[1..];
      forall x ensures x in s - {m} <==> x in rest {
        TailElements(xs, x);
      }
      AscendingUnique(s - {m}, rest);
      assert xs == [m] + rest;
    }
  }
}

=== FILE: entity_world.dfy ===
/** The entity world of the development kit: a slot array of entities, a LIFO
    list of recycled ids, a dense list of alive handles with a back-index in
    every slot, and two bitsets (entities to kill, entities whose system
    membership must be re-evaluated). Systems are abstracted to their
    membership set and their `Filters` predicate. */
module EntityWorld {
  import opened Collections

  type EntityId = nat

  /** One slot of the entity array: whether the entity in it is alive, and
      where its handle sits in the alive list. */
  datatype EntityBlock = EntityBlock(valid: bool, aliveIndex: nat)

  /** A weak reference to an entity; `EmptyHandle` is the default handle. */
  datatype EntityHandle = EmptyHandle | Handle(id: EntityId)

  /** A system: the entities it holds (`HasEntity`) and which entities it
      wants (`Filters`). */
  datatype System = System(members: set<EntityId>, filters: EntityId -> bool)

  /** A membership change the world asks of a system during `Update`. */
  datatype Notification = AddEntity(system: nat, id: EntityId) | RemoveEntity(system: nat, id: EntityId)

  datatype World = World(
    entities: seq<EntityBlock>,
    freeIds: seq<EntityId>,
    alive: seq<EntityId>,
    killed: set<EntityId>,
    dirty: set<EntityId>,
    systems: seq<System>)

  datatype Created = Created(world: World, handle: EntityHandle)

  datatype Lookup = Lookup(handle: EntityHandle, errorReported: bool)

  datatype Updated = Updated(world: World, notifications: seq<Notification>)

  // ---------------------------------------------------------------------
  // Invariants
  // ---------------------------------------------------------------------

  predicate IsEntityIdValid(w: World, id: EntityId) {
    id < |w.entities| && w.entities[id].valid
  }

  /** Every position of the alive list holds a live entity whose slot points
      back at that position. */
  predicate AliveIndexed(w: World) {
    forall k :: 0 <= k < |w.alive| ==>
      w.alive[k] < |w.entities| && w.entities[w.alive[k]].valid && w.entities[w.alive[k]].aliveIndex == k
  }

  /** Every live slot's back-index points at its own handle. */
  predicate LiveListed(w: World) {
    forall id :: 0 <= id < |w.entities| && w.entities[id].valid ==>
      w.entities[id].aliveIndex < |w.alive| && w.alive[w.entities[id].aliveIndex] == id
  }

  /** The free list holds every dead slot exactly once and nothing else. */
  predicate FreeListed(w: World) {
    && Distinct(w.freeIds)
    && (forall j :: 0 <= j < |w.freeIds| ==> w.freeIds[j] < |w.entities| && !w.entities[w.freeIds[j]].valid)
    && (forall id :: 0 <= id < |w.entities| && !w.entities[id].valid ==> id in w.freeIds)
  }

  /** The bookkeeping of slots, free ids and alive handles agrees. */
  predicate Indexed(w: World) {
    AliveIndexed(w) && LiveListed(w) && FreeListed(w)
  }

  /** The world between two calls: bookkeeping agrees, only live entities are
      marked for killing, and dirty marks name existing slots. */
  predicate Consistent(w: World) {
    && Indexed(w)
    && (forall id :: id in w.killed ==> IsEntityIdValid(w, id))
    && (forall id :: id in w.dirty ==> id < |w.entities|)
  }

  /** A system holds an entity exactly when it wants it. */
  ghost predicate Converged(w: World, id: EntityId) {
    forall j :: 0 <= j < |w.systems| ==> (id in w.systems[j].members <==> w.systems[j].filters(id))
  }

  /** The alive list enumerates the live entities, each once. */
  lemma {:induction false} AliveEnumeratesLive(w: World)
    requires Indexed(w)
    ensures Distinct(w.alive)
    ensures forall id :: id in w.alive <==> IsEntityIdValid(w, id)
  {
    forall i, j | 0 <= i < j < |w.alive| ensures w.alive[i] != w.alive[j] {
      assert w.entities[w.alive[i]].aliveIndex == i;
      assert w.entities[w.alive[j]].aliveIndex == j;
    }
    forall id: EntityId | IsEntityIdValid(w, id) ensures id in w.alive {
      assert w.alive[w.entities[id].aliveIndex] == id;
    }
  }

  // ---------------------------------------------------------------------
  // Operations
  // ---------------------------------------------------------------------

  /** A world with no entity and the given systems. */
  function NewWorld(systems: seq<System>): (w: World)
    ensures Consistent(w) && w.alive == [] && w.systems == systems
  {
    World([], [], [], {}, {}, systems)
  }

  /** `CreateEntity`: reuse the most recently freed id, or else mint the id
      equal to the current slot count; make the slot live and append its
      handle to the alive list. */
  function CreateEntity(w: World): (r: Created)
    requires Consistent(w)
    ensures Consistent(r.world)
    ensures r.handle.Handle? && IsEntityIdValid(r.world, r.handle.id) && !IsEntityIdValid(w, r.handle.id)
    ensures w.freeIds != [] ==>
      && r.handle.id == w.freeIds[|w.freeIds| - 1]
      && r.world.freeIds == w.freeIds[..|w.freeIds| - 1]
      && |r.world.entities| == |w.entities|
    ensures w.freeIds == [] ==>
      && r.handle.id == |w.entities|
      && r.world.freeIds == []
      && |r.world.entities| == |w.entities| + 1
    ensures r.world.alive == w.alive + [r.handle.id]
    ensures r.world.entities[r.handle.id].aliveIndex == |r.world.alive| - 1
    ensures forall id :: id != r.handle.id ==> (IsEntityIdValid(r.world, id) <==> IsEntityIdValid(w, id))
    ensures r.world.killed == w.killed && r.world.dirty == w.dirty && r.world.systems == w.systems
  {
    var n := |w.freeIds|;
    var id := if n > 0 then w.freeIds[n - 1] else |w.entities|;
    var slots := if n > 0 then w.entities else w.entities + [EntityBlock(false, 0)];
    var r := Created(
      w.(entities := slots[id := EntityBlock(true, |w.alive|)],
         freeIds := if n > 0 then w.freeIds[..n - 1] else w.freeIds,
         alive := w.alive + [id]),
      Handle(id));
    CreatePreservesConsistency(w, r.world, id);
    r
  }

  lemma CreatePreservesConsistency(w: World, v: World, id: EntityId)
    requires Consistent(w)
    requires w.freeIds != [] ==> id == w.freeIds[|w.freeIds| - 1] && v.freeIds == w.freeIds[..|w.freeIds| - 1] && |v.entities| == |w.entities|
    requires w.freeIds == [] ==> id == |w.entities| && v.freeIds == [] && |v.entities| == |w.entities| + 1
    requires forall x :: 0 <= x < |w.entities| && x != id ==> v.entities[x] == w.entities[x]
    requires id < |v.entities| && v.entities[id] == EntityBlock(true, |w.alive|)
    requires v.alive == w.alive + [id]
    requires v.killed == w.killed && v.dirty == w.dirty
    ensures Consistent(v)
  {
    assert !IsEntityIdValid(w, id) by {
      if w.freeIds != [] {
        assert w.freeIds[|w.freeIds| - 1] == id;
      }
    }
    forall x | 0 <= x < |v.entities| && !v.entities[x].valid ensures x in v.freeIds {
      assert x != id && x < |w.entities|;
      assert x in w.freeIds;
      var j :| 0 <= j < |w.freeIds| && w.freeIds[j] == x;
      assert j != |w.freeIds| - 1;
      assert v.freeIds[j] == x;
    }
  }

  /** `KillEntity`: a live entity is only marked for killing; it stays alive
      and listed until the next `Update`. An invalid handle is ignored. */
  function KillEntity(w: World, h: EntityHandle): (r: World)
    ensures h.Handle? && IsEntityIdValid(w, h.id) ==> r == w.(killed := w.killed + {h.id})
    ensures !(h.Handle? && IsEntityIdValid(w, h.id)) ==> r == w
  {
    if h.Handle? && IsEntityIdValid(w, h.id) then w.(killed := w.killed + {h.id}) else w
  }

  /** `GetEntity`: the handle of a live entity, found through its slot's
      back-index; for any other id an error is reported and the empty handle
      returned. */
  function GetEntity(w: World, id: EntityId): (r: Lookup)
    requires Indexed(w)
    ensures IsEntityIdValid(w, id) ==> r == Lookup(Handle(id), false)
    ensures !IsEntityIdValid(w, id) ==> r == Lookup(EmptyHandle, true)
  {
    if IsEntityIdValid(w, id) then Lookup(Handle(w.alive[w.entities[id].aliveIndex]), false)
    else Lookup(EmptyHandle, true)
  }

  /** `Clear`, corrected: every slot, handle and mark is dropped, and so is
      the free list (see `ClearAsWritten`). */
  function Clear(w: World): (r: World)
    ensures Consistent(r)
    ensures forall id :: !IsEntityIdValid(r, id)
    ensures r.alive == [] && r.freeIds == [] && r.killed == {} && r.dirty == {}
    ensures r.systems == w.systems
  {
    World([], [], [], {}, {}, w.systems)
  }

  /** `Clear` as the source writes it: the free list survives. */
  function ClearAsWritten(w: World): (r: World)
    ensures r.entities == [] && r.alive == [] && r.killed == {} && r.dirty == {}
    ensures r.freeIds == w.freeIds && r.systems == w.systems
  {
    w.(entities := [], alive := [], killed := {}, dirty := {})
  }

  /** After the source's `Clear`, a world that had recycled ids left is no
      longer consistent: the next `CreateEntity` would pop an id that has no
      slot (`m_entities[id]` out of range). */
  lemma ClearAsWrittenLeavesDanglingFreeIds(w: World)
    requires Consistent(w) && w.freeIds != []
    ensures var c := ClearAsWritten(w);
      !Consistent(c) && c.freeIds[|c.freeIds| - 1] >= |c.entities|
  {
    var c := ClearAsWritten(w);
    assert !(c.freeIds[0] < |c.entities|);
  }

  /** Such a world is reached from an empty one by create, kill, update. */
  lemma ClearAsWrittenCounterexample(systems: seq<System>)
    ensures var w := Update(KillEntity(CreateEntity(NewWorld(systems)).world, Handle(0))).world;
      Consistent(w) && w.freeIds == [0] && !Consistent(ClearAsWritten(w))
  {
    var c := CreateEntity(NewWorld(systems));
    assert c.handle == Handle(0);
    var k := KillEntity(c.world, Handle(0));
    assert k.killed == {0};
    assert Ascending(k.killed) == [0];
  }

  // ---------------------------------------------------------------------
  // Update, phase 1: killed entities
  // ---------------------------------------------------------------------

  /** One step of the kill phase: recycle the id, destroy the entity, and
      remove its handle from the alive list by moving the last handle into
      its place and patching the moved entity's back-index. */
  function KillOne(w: World, id: EntityId): (r: World)
    requires Indexed(w) && IsEntityIdValid(w, id)
    ensures Indexed(r)
    ensures r.freeIds == w.freeIds + [id]
    ensures |r.entities| == |w.entities| && |r.alive| == |w.alive| - 1
    ensures forall x :: x in r.alive <==> x in w.alive && x != id
    ensures forall x :: IsEntityIdValid(r, x) <==> IsEntityIdValid(w, x) && x != id
    ensures var k := w.entities[id].aliveIndex; var last := w.alive[|w.alive| - 1];
      && (k < |w.alive| - 1 ==> r.alive[k] == last && r.entities[last].aliveIndex == k)
      && forall x :: 0 <= x < |w.entities| && x != id && x != last ==> r.entities[x] == w.entities[x]
    ensures r.killed == w.killed && r.dirty == w.dirty && r.systems == w.systems
  {
    AliveEnumeratesLive(w);
    var k := w.entities[id].aliveIndex;
    var last := |w.alive| - 1;
    var destroyed := w.entities[id := w.entities[id].(valid := false)];
    var r :=
      if k < last then
        var moved := w.alive[last];
        w.(freeIds := w.freeIds + [id],
           entities := destroyed[moved := destroyed[moved].(aliveIndex := k)],
           alive := w.alive[k := moved][..last])
      else
        w.(freeIds := w.freeIds + [id], entities := destroyed, alive := w.alive[..last]);
    KillOnePreservesIndex(w, id, r);
    r
  }

  /** `r` is `w` after the kill step for `id`. */
  ghost predicate KilledFrom(w: World, id: EntityId, r: World)
    requires Indexed(w) && IsEntityIdValid(w, id)
  {
    var k := w.entities[id].aliveIndex; var last := |w.alive| - 1;
    var destroyed := w.entities[id := w.entities[id].(valid := false)];
    if k < last then
      r == w.(freeIds := w.freeIds + [id],
              entities := destroyed[w.alive[last] := destroyed[w.alive[last]].(aliveIndex := k)],
              alive := w.alive[k := w.alive[last]][..last])
    else
      r == w.(freeIds := w.freeIds + [id], entities := destroyed, alive := w.alive[..last])
  }

  lemma KillOnePreservesIndex(w: World, id: EntityId, r: World)
    requires Indexed(w) && IsEntityIdValid(w, id)
    requires KilledFrom(w, id, r)
    ensures Indexed(r)
    ensures forall x :: x in r.alive <==> x in w.alive && x != id
  {
    KillOneAlive(w, id, r);
    KillOneFree(w, id, r);
    KillOneMembers(w, id, r);
  }

  lemma KillOneAlive(w: World, id: EntityId, r: World)
    requires Indexed(w) && IsEntityIdValid(w, id)
    requires KilledFrom(w, id, r)
    ensures AliveIndexed(r) && LiveListed(r)
  {
    AliveEnumeratesLive(w);
    assert w.alive[w.entities[id].aliveIndex] == id;
  }

  lemma KillOneFree(w: World, id: EntityId, r: World)
    requires Indexed(w) && IsEntityIdValid(w, id)
    requires KilledFrom(w, id, r)
    ensures FreeListed(r)
  {
    assert id !in w.freeIds;
    forall x | 0 <= x < |r.entities| && !r.entities[x].valid ensures x in r.freeIds {
      if x != id {
        assert x in w.freeIds;
      } else {
        assert r.freeIds[|r.freeIds| - 1] == id;
      }
    }
  }

  lemma KillOneMembers(w: World, id: EntityId, r: World)
    requires Indexed(w) && IsEntityIdValid(w, id)
    requires KilledFrom(w, id, r)
    ensures forall x :: x in r.alive <==> x in w.alive && x != id
  {
    AliveEnumeratesLive(w);
    var k := w.entities[id].aliveIndex;
    var last := |w.alive| - 1;
    assert w.alive[k] == id;
    forall x ensures x in r.alive <==> x in w.alive && x != id {
      if x in w.alive && x != id {
        var p :| 0 <= p < |w.alive| && w.alive[p] == x;
        if p == last && k < last {
          assert r.alive[k] == x;
        } else {
          assert p != k && p < last;
          assert r.alive[p] == x;
        }
      }
    }
  }

  /** The kill phase over a list of distinct live ids, in the given order. */
  function KillAll(w: World, ids: seq<EntityId>): (r: World)
    requires Indexed(w) && Distinct(ids)
    requires forall i :: 0 <= i < |ids| ==> IsEntityIdValid(w, ids[i])
    ensures Indexed(r)
    ensures r.freeIds == w.freeIds + ids
    ensures |r.entities| == |w.entities| && |r.alive| == |w.alive| - |ids|
    ensures forall x :: x in r.alive <==> x in w.alive && x !in ids
    ensures forall x :: IsEntityIdValid(r, x) <==> IsEntityIdValid(w, x) && x !in ids
    ensures r.killed == w.killed && r.dirty == w.dirty && r.systems == w.systems
    decreases |ids|
  {
    if ids == [] then w
    else
      var next := KillOne(w, ids[0]);
      KillAllStep(w, ids, next);
      KillAll(next, ids[1..])
  }

  lemma KillAllStep(w: World, ids: seq<EntityId>, next: World)
    requires Distinct(ids) && |ids| > 0
    requires forall i :: 0 <= i < |ids| ==> IsEntityIdValid(w, ids[i])
    requires forall x :: IsEntityIdValid(next, x) <==> IsEntityIdValid(w, x) && x != ids[0]
    ensures Distinct(ids[1..])
    ensures forall i :: 0 <= i < |ids[1..]| ==> IsEntityIdValid(next, ids[1..][i])
    ensures forall x :: x in ids <==> x == ids[0] || x in ids[1..]
    ensures w.freeIds + ids == w.freeIds + [ids[0]] + ids[1..]
  {
    forall i | 0 <= i < |ids[1..]| ensures IsEntityIdValid(next, ids[1..][i]) {
      assert ids[1..][i] == ids[i + 1] && ids[i + 1] != ids[0];
    }
    assert ids == [ids[0]] + ids[1..];
  }

  /** Phase 1 of `Update`: kill the marked entities in ascending id order,
      then reset the kill bitset. */
  function KillPhase(w: World): (r: World)
    requires Consistent(w)
    ensures Consistent(r)
    ensures r.killed == {}
    ensures r.freeIds == w.freeIds + Ascending(w.killed)
    ensures |r.entities| == |w.entities| && |r.alive| == |w.alive| - |w.killed|
    ensures forall x :: x in r.alive <==> x in w.alive && x !in w.killed
    ensures forall x :: IsEntityIdValid(r, x) <==> IsEntityIdValid(w, x) && x !in w.killed
    ensures r.dirty == w.dirty && r.systems == w.systems
  {
    var order := Ascending(w.killed);
    IncreasingIsDistinct(order);
    KillAll(w, order).(killed := {})
  }

  // ---------------------------------------------------------------------
  // Update, phase 2: dirty entities
  // ---------------------------------------------------------------------

  /** System `after` is system `before` brought in line with its filter for
      entity `id`, everything else left alone. */
  ghost predicate ReconciledFor(before: System, after: System, id: EntityId) {
    && after.filters == before.filters
    && (id in after.members <==> before.filters(id))
    && after.members - {id} == before.members - {id}
  }

  datatype Reconciled = Reconciled(systems: seq<System>, notifications: seq<Notification>)

  /** One system's answer for one live entity: whether it holds the entity
      and whether it should, and the add or remove where the two differ. */
  function ReconcileSystem(s: System, id: EntityId, base: nat): (r: Reconciled)
    ensures |r.systems| == 1 && ReconciledFor(s, r.systems[0], id)
    ensures (id in s.members <==> s.filters(id)) ==> r.notifications == [] && r.systems == [s]
    ensures forall n :: n in r.notifications ==> n.id == id && n.system == base
    ensures r.notifications ==
      if (id in s.members) == s.filters(id) then []
      else if id in s.members then [RemoveEntity(base, id)]
      else [AddEntity(base, id)]
  {
    var partOfSystem := id in s.members;
    if s.filters(id) == partOfSystem then Reconciled([s], [])
    else if partOfSystem then Reconciled([s.(members := s.members - {id})], [RemoveEntity(base, id)])
    else Reconciled([s.(members := s.members + {id})], [AddEntity(base, id)])
  }

  /** For one live entity, ask every system (numbered from `base`) whether it
      holds the entity and whether it should, and add or remove it where the
      two answers differ. */
  function ReconcileEntity(systems: seq<System>, id: EntityId, base: nat): (r: Reconciled)
    ensures |r.systems| == |systems|
    ensures forall j :: 0 <= j < |systems| ==> ReconciledFor(systems[j], r.systems[j], id)
    ensures (forall j :: 0 <= j < |systems| ==> (id in systems[j].members <==> systems[j].filters(id)))
      ==> r.notifications == [] && r.systems == systems
    ensures forall n :: n in r.notifications ==> n.id == id && base <= n.system < base + |systems|
    decreases |systems|
  {
    if systems == [] then Reconciled([], [])
    else
      var step := ReconcileSystem(systems[0], id, base);
      var rest := ReconcileEntity(systems[1..], id, base + 1);
      assert forall j :: 1 <= j < |systems| ==> systems[1..][j - 1] == systems[j];
      Reconciled(step.systems + rest.systems, step.notifications + rest.notifications)
  }

  /** The notifications of a sweep over `systems` for entity `id`, system
      by system; `ReconcileEntity` sends exactly these (`ReconcileEntitySends`). */
  function Notices(systems: seq<System>, id: EntityId, base: nat): seq<Notification>
    decreases |systems|
  {
    if systems == [] then []
    else
      var s := systems[0];
      var here := if (id in s.members) == s.filters(id) then []
        else if id in s.members then [RemoveEntity(base, id)]
        else [AddEntity(base, id)];
      here + Notices(systems[1..], id, base + 1)
  }

  /** A sweep from system `base` names no earlier system. */
  lemma {:induction false} NoticesAfter(systems: seq<System>, id: EntityId, base: nat, n: nat)
    requires n < base
    ensures AddEntity(n, id) !in Notices(systems, id, base) && RemoveEntity(n, id) !in Notices(systems, id, base)
    decreases |systems|
  {
    if systems != [] {
      NoticesAfter(systems[1..], id, base + 1, n);
    }
  }

  /** `ReconcileEntity` sends the sweep's notifications, in order. */
  lemma {:induction false} ReconcileEntitySends(systems: seq<System>, id: EntityId, base: nat)
    ensures ReconcileEntity(systems, id, base).notifications == Notices(systems, id, base)
    decreases |systems|
  {
    if systems != [] {
      ReconcileEntitySends(systems[1..], id, base + 1);
    }
  }

  /** The sweep tells system `n` to add or remove exactly where its
      membership and filter disagree. */
  lemma {:induction false} NoticesPresent(systems: seq<System>, id: EntityId, base: nat, n: nat)
    requires base <= n < base + |systems|
    ensures AddEntity(n, id) in Notices(systems, id, base) <==>
      id !in systems[n - base].members && systems[n - base].filters(id)
    ensures RemoveEntity(n, id) in Notices(systems, id, base) <==>
      id in systems[n - base].members && !systems[n - base].filters(id)
    decreases |systems|
  {
    var s := systems[0];
    var here := if (id in s.members) == s.filters(id) then []
      else if id in s.members then [RemoveEntity(base, id)]
      else [AddEntity(base, id)];
    var rest := Notices(systems[1..], id, base + 1);
    assert Notices(systems, id, base) == here + rest;
    if n == base {
      NoticesAfter(systems[1..], id, base + 1, n);
    } else {
      NoticesPresent(systems[1..], id, base + 1, n);
      assert systems[1..][n - (base + 1)] == systems[n - base];
      assert AddEntity(n, id) !in here && RemoveEntity(n, id) !in here;
    }
  }

  /** System `n` is told to add the entity exactly when it did not hold it
      and its filter accepts it, and to remove it exactly when it held it and
      its filter now rejects it. */
  lemma ReconcileEntityNotifies(systems: seq<System>, id: EntityId, base: nat, n: nat)
    requires base <= n < base + |systems|
    ensures AddEntity(n, id) in ReconcileEntity(systems, id, base).notifications <==>
      id !in systems[n - base].members && systems[n - base].filters(id)
    ensures RemoveEntity(n, id) in ReconcileEntity(systems, id, base).notifications <==>
      id in systems[n - base].members && !systems[n - base].filters(id)
  {
    ReconcileEntitySends(systems, id, base);
    NoticesPresent(systems, id, base, n);
  }

  /** `after` is `w`'s systems with every live entity of `ids` reconciled
      and every other membership as it was. */
  ghost predicate ReconciledOver(w: World, after: seq<System>, ids: seq<EntityId>) {
    && |after| == |w.systems|
    && (forall j :: 0 <= j < |w.systems| ==> after[j].filters == w.systems[j].filters)
    && (forall j, x :: 0 <= j < |w.systems| && x in ids && IsEntityIdValid(w, x) ==>
         (x in after[j].members <==> w.systems[j].filters(x)))
    && (forall j, x :: 0 <= j < |w.systems| && !(x in ids && IsEntityIdValid(w, x)) ==>
         (x in after[j].members <==> x in w.systems[j].members))
  }

  /** The dirty phase over a list of ids: live ones are reconciled with every
      system, dead ones skipped. Only the systems change. */
  function DirtyAll(w: World, ids: seq<EntityId>): (r: Updated)
    ensures r.world == w.(systems := r.world.systems)
    ensures ReconciledOver(w, r.world.systems, ids)
    decreases |ids|
  {
    if ids == [] then Updated(w, [])
    else
      var id := ids[0];
      var step := if IsEntityIdValid(w, id) then ReconcileEntity(w.systems, id, 0) else Reconciled(w.systems, []);
      var rest := DirtyAll(w.(systems := step.systems), ids[1..]);
      DirtyStepCompose(w, ids, w.(systems := step.systems), rest.world);
      Updated(rest.world, step.notifications + rest.notifications)
  }

  lemma DirtyStepFrame(before: seq<System>, after: seq<System>, id: EntityId)
    requires |after| == |before|
    requires forall j :: 0 <= j < |before| ==> after[j].members - {id} == before[j].members - {id}
    ensures forall j, x :: 0 <= j < |before| && x != id ==> (x in after[j].members <==> x in before[j].members)
  {
    forall j, x | 0 <= j < |before| && x != id ensures x in after[j].members <==> x in before[j].members {
      assert x in after[j].members <==> x in after[j].members - {id};
      assert x in before[j].members <==> x in before[j].members - {id};
    }
  }

  lemma DirtyStepCompose(w: World, ids: seq<EntityId>, next: World, rest: World)
    requires |ids| > 0 && next.entities == w.entities
    requires var step := next.systems; |step| == |w.systems|
    requires var step := next.systems; forall j :: 0 <= j < |w.systems| ==> step[j].filters == w.systems[j].filters
    requires var step := next.systems; IsEntityIdValid(w, ids[0]) ==> forall j :: 0 <= j < |w.systems| ==> ReconciledFor(w.systems[j], step[j], ids[0])
    requires !IsEntityIdValid(w, ids[0]) ==> next.systems == w.systems
    requires ReconciledOver(next, rest.systems, ids[1..])
    ensures ReconciledOver(w, rest.systems, ids)
  {
    var id := ids[0];
    var step := next.systems;
    assert forall x :: x in ids <==> x == id || x in ids[1..];
    assert forall x :: IsEntityIdValid(next, x) == IsEntityIdValid(w, x);
    DirtyStepFrame(w.systems, step, id);
    forall j, x | 0 <= j < |w.systems| && x in ids && IsEntityIdValid(w, x)
      ensures x in rest.systems[j].members <==> w.systems[j].filters(x)
    {
      assert step[j].filters(x) == w.systems[j].filters(x);
      if x !in ids[1..] {
        assert x == id;
        assert ReconciledFor(w.systems[j], step[j], id);
      }
    }
  }

  /** Re-evaluating entities that already agree with every system notifies
      nobody and changes nothing. */
  lemma {:induction false} DirtyAllConvergedIsNoop(w: World, ids: seq<EntityId>)
    requires forall x :: x in ids && IsEntityIdValid(w, x) ==> Converged(w, x)
    ensures DirtyAll(w, ids) == Updated(w, [])
    decreases |ids|
  {
    if ids != [] {
      var id := ids[0];
      if IsEntityIdValid(w, id) {
        assert Converged(w, id);
      }
      assert w.(systems := w.systems) == w;
      DirtyAllConvergedIsNoop(w, ids[1..]);
    }
  }

  /** The bookkeeping does not depend on the systems, and dropping dirty
      marks keeps the world consistent. */
  lemma ConsistentFrame(w: World, v: World)
    requires Consistent(w)
    requires v.entities == w.entities && v.freeIds == w.freeIds && v.alive == w.alive
    requires v.killed <= w.killed && v.dirty <= w.dirty
    ensures Consistent(v)
  {
  }

  /** Phase 2 of `Update`: reconcile the marked entities in ascending id
      order, then reset the dirty bitset. */
  function DirtyPhase(w: World): (r: Updated)
    requires Consistent(w)
    ensures Consistent(r.world)
    ensures r.world.entities == w.entities && r.world.freeIds == w.freeIds && r.world.alive == w.alive
    ensures r.world.killed == w.killed && r.world.dirty == {}
    ensures |r.world.systems| == |w.systems|
    ensures forall j :: 0 <= j < |w.systems| ==> r.world.systems[j].filters == w.systems[j].filters
  {
    var d := DirtyAll(w, Ascending(w.dirty));
    var r := Updated(d.world.(dirty := {}), d.notifications);
    ConsistentFrame(w, r.world);
    r
  }

  /** The dirty phase reconciles exactly the marked entities that are alive. */
  lemma DirtyPhaseReconciles(w: World)
    requires Consistent(w)
    ensures ReconciledOver(w, DirtyPhase(w).world.systems, Ascending(w.dirty))
  {
    assert DirtyPhase(w).world.systems == DirtyAll(w, Ascending(w.dirty)).world.systems;
  }

  /** `Update`: the kill phase, then the dirty phase. */
  function Update(w: World): (r: Updated)
    requires Consistent(w)
    ensures Consistent(r.world)
    ensures r.world.killed == {} && r.world.dirty == {}
    ensures r.world.freeIds == w.freeIds + Ascending(w.killed)
    ensures |r.world.alive| == |w.alive| - |w.killed|
    ensures forall x :: x in r.world.alive <==> x in w.alive && x !in w.killed
    ensures forall x :: IsEntityIdValid(r.world, x) <==> IsEntityIdValid(w, x) && x !in w.killed
    ensures |r.world.systems| == |w.systems|
    ensures forall j :: 0 <= j < |w.systems| ==> r.world.systems[j].filters == w.systems[j].filters
  {
    var k := KillPhase(w);
    DirtyPhase(k)
  }

  /** After `Update` every surviving marked entity agrees with every system,
      and an unmarked entity's memberships are as before. */
  lemma UpdateReconciles(w: World)
    requires Consistent(w)
    ensures forall x :: x in w.dirty && IsEntityIdValid(Update(w).world, x) ==> Converged(Update(w).world, x)
    ensures forall j, x :: 0 <= j < |w.systems| && x !in w.dirty ==>
      (x in Update(w).world.systems[j].members <==> x in w.systems[j].members)
  {
    var k := KillPhase(w);
    DirtyPhaseReconciles(k);
    UpdateCompose(w, k, DirtyPhase(k).world);
  }

  lemma UpdateCompose(w: World, k: World, d: World)
    requires k.entities == d.entities && k.dirty == w.dirty && k.systems == w.systems
    requires ReconciledOver(k, d.systems, Ascending(k.dirty))
    ensures forall x :: x in w.dirty && IsEntityIdValid(d, x) ==> Converged(d, x)
    ensures forall j, x :: 0 <= j < |w.systems| && x !in w.dirty ==>
      (x in d.systems[j].members <==> x in w.systems[j].members)
  {
    assert forall x :: IsEntityIdValid(d, x) == IsEntityIdValid(k, x);
    forall x | x in w.dirty && IsEntityIdValid(d, x) ensures Converged(d, x) {
      assert x in Ascending(k.dirty);
    }
  }

  // ---------------------------------------------------------------------
  // Properties across calls
  // ---------------------------------------------------------------------

  /** Kills are deferred: right after `KillEntity` the entity is still found
      and listed; after `Update` it is gone and its id is on the free list. */
  lemma KillIsDeferred(w: World, id: EntityId)
    requires Consistent(w) && IsEntityIdValid(w, id)
    ensures var k := KillEntity(w, Handle(id));
      && Consistent(k) && k.alive == w.alive
      && GetEntity(k, id) == Lookup(Handle(id), false)
      && GetEntity(Update(k).world, id) == Lookup(EmptyHandle, true)
      && id in Update(k).world.freeIds
      && id !in Update(k).world.alive
  {
    var k := KillEntity(w, Handle(id));
    assert id in k.killed && IsEntityIdValid(k, id);
    var u := Update(k).world;
    assert !IsEntityIdValid(u, id);
    assert id in Ascending(k.killed);
    assert u.freeIds == k.freeIds + Ascending(k.killed);
  }

  /** A recycled id is handed out again before any new id is minted: killing
      one entity and updating makes the next `CreateEntity` return its id. */
  lemma KilledIdIsReused(w: World, id: EntityId)
    requires Consistent(w) && w.killed == {} && IsEntityIdValid(w, id)
    ensures CreateEntity(Update(KillEntity(w, Handle(id))).world).handle == Handle(id)
  {
    var k := KillEntity(w, Handle(id));
    assert k.killed == {id};
    assert Ascending(k.killed) == [id];
  }

  /** If every live entity that is not marked dirty already agrees with every
      system, then after `Update` every live entity does. */
  lemma UpdateConverges(w: World)
    requires Consistent(w)
    requires forall x :: IsEntityIdValid(w, x) && x !in w.dirty ==> Converged(w, x)
    ensures forall x :: IsEntityIdValid(Update(w).world, x) ==> Converged(Update(w).world, x)
  {
    var k := KillPhase(w);
    var r := Update(w).world;
    UpdateReconciles(w);
    forall x | IsEntityIdValid(r, x) ensures Converged(r, x) {
      if x !in w.dirty {
        assert Converged(w, x);
        forall j | 0 <= j < |r.systems| ensures (x in r.systems[j].members <==> r.systems[j].filters(x)) {
          assert r.systems[j].filters == k.systems[j].filters;
        }
      }
    }
  }

  /** A second `Update` with no mutation in between does no work: no system
      is notified and the world is unchanged. */
  lemma UpdateIsIdempotent(w: World)
    requires Consistent(w)
    ensures var once := Update(w).world;
      Update(once) == Updated(once, [])
  {
    var once := Update(w).world;
    assert Ascending(once.killed) == [];
    assert KillPhase(once) == once;
    assert Ascending(once.dirty) == [];
  }
}

=== FILE: glyph_layout.dfy ===
/** The glyph batching of the text sprite: glyphs are counted per atlas
    texture, every texture gets a contiguous range of quads in one shared
    vertex array, and each glyph's four vertices are written into its
    texture's range, one quad after the other.

    Floating-point quantities are abstracted: a texture coordinate is the
    glyph's integer atlas rectangle tagged with the corner the vertex
    samples, and a final vertex records the local vertex and tint it was
    computed from. */
module GlyphLayout {
  import opened Collections

  /** An atlas page (a texture), identified by its address; containers keyed
      by textures iterate in ascending key order. */
  type TextureId = nat

  datatype Point = Point(x: int, y: int)

  datatype Color = Color(r: int, g: int, b: int, a: int)

  datatype Rect = Rect(x: int, y: int, width: int, height: int)

  datatype Corner = LeftTop | RightTop | LeftBottom | RightBottom

  /** The four corner positions of a glyph, in vertex order. */
  datatype Quad = Quad(c0: Point, c1: Point, c2: Point, c3: Point)

  /** One glyph of a laid-out text, as the text drawer describes it. */
  datatype Glyph = Glyph(corners: Quad, color: Color, atlasRect: Rect, texture: TextureId, flipped: bool)

  /** The quad range of one texture: `count` quads starting at quad `first`. */
  datatype RenderIndices = RenderIndices(first: nat, count: nat)

  type RenderInfos = map<TextureId, RenderIndices>

  /** A vertex in glyph-local space. */
  datatype LocalVertex = LocalVertex(position: Point, color: Color)

  /** A texture coordinate: a corner of an atlas rectangle, or such a
      coordinate rescaled when its atlas layer was replaced by a resized
      one (the factor is the ratio of the two layers' sizes). */
  datatype TexCoord =
    | NoTexCoord
    | TexCoord(rect: Rect, corner: Corner)
    | Rescaled(original: TexCoord, oldLayer: TextureId, newLayer: TextureId)

  /** Position and color of a final vertex: not computed yet, or computed
      from a local vertex under the sprite's tint. */
  datatype Shade = Unshaded | Shaded(local: LocalVertex, tint: Color)

  datatype Vertex = Vertex(shade: Shade, uv: TexCoord)

  datatype Placed = Placed(infos: RenderInfos, vertices: seq<Vertex>, locals: seq<LocalVertex>)

  // ---------------------------------------------------------------------
  // Corners
  // ---------------------------------------------------------------------

  function CornerOf(q: Quad, j: nat): Point
    requires j < 4
  {
    if j == 0 then q.c0 else if j == 1 then q.c1 else if j == 2 then q.c2 else q.c3
  }

  /** The atlas corner sampled by vertex `j` of a glyph quad. */
  function UVCorner(flipped: bool, j: nat): Corner
    requires j < 4
  {
    if !flipped then [LeftTop, RightTop, LeftBottom, RightBottom][j]
    else [LeftBottom, LeftTop, RightBottom, RightTop][j]
  }

  /** Vertex `j` of glyph `g` in local space. */
  function LocalOf(g: Glyph, j: nat): LocalVertex
    requires j < 4
  {
    LocalVertex(CornerOf(g.corners, j), g.color)
  }

  /** The texture coordinate of vertex `j` of glyph `g`. */
  function UVOf(g: Glyph, j: nat): TexCoord
    requires j < 4
  {
    TexCoord(g.atlasRect, UVCorner(g.flipped, j))
  }

  /** Corner geometry, as column and row of a unit square with y downwards. */
  function Column(c: Corner): nat {
    if c == RightTop || c == RightBottom then 1 else 0
  }

  function Row(c: Corner): nat {
    if c == LeftBottom || c == RightBottom then 1 else 0
  }

  function CornerAt(column: nat, row: nat): (c: Corner)
    requires column < 2 && row < 2
    ensures Column(c) == column && Row(c) == row
  {
    if row == 0 then (if column == 0 then LeftTop else RightTop)
    else (if column == 0 then LeftBottom else RightBottom)
  }

  /** A quarter turn of the unit square: (column, row) goes to (row, 1 - column). */
  function QuarterTurn(c: Corner): Corner {
    CornerAt(Row(c), 1 - Column(c))
  }

  /** Without rotation, vertex `j` samples the corner it sits at: vertices
      run left to right, then top to bottom. */
  lemma UVOrderFollowsVertices(j: nat)
    requires j < 4
    ensures UVCorner(false, j) == CornerAt(j % 2, j / 2)
  {
  }

  /** A flipped glyph samples its atlas rectangle turned by a quarter turn,
      and four quarter turns are the identity. */
  lemma FlippedIsQuarterTurn(j: nat, c: Corner)
    requires j < 4
    ensures UVCorner(true, j) == QuarterTurn(UVCorner(false, j))
    ensures QuarterTurn(c) != c && QuarterTurn(QuarterTurn(QuarterTurn(QuarterTurn(c)))) == c
  {
  }

  /** Either way, the four vertices sample the four corners, each once. */
  lemma UVCornersArePermutation(flipped: bool, c: Corner)
    ensures exists j :: 0 <= j < 4 && UVCorner(flipped, j) == c
    ensures forall i, j :: 0 <= i < j < 4 ==> UVCorner(flipped, i) != UVCorner(flipped, j)
  {
    var j := if !flipped then (match c case LeftTop => 0 case RightTop => 1 case LeftBottom => 2 case RightBottom => 3)
             else (match c case LeftBottom => 0 case LeftTop => 1 case RightBottom => 2 case RightTop => 3);
    assert UVCorner(flipped, j) == c;
  }

  // ---------------------------------------------------------------------
  // Counting glyphs per texture
  // ---------------------------------------------------------------------

  /** How many of `glyphs` use texture `t`. */
  function GlyphsOn(glyphs: seq<Glyph>, t: TextureId): nat
    decreases |glyphs|
  {
    if glyphs == [] then 0
    else (if glyphs[0].texture == t then 1 else 0) + GlyphsOn(glyphs[1..], t)
  }

  /** The textures used by `glyphs`. */
  function Textures(glyphs: seq<Glyph>): set<TextureId>
    decreases |glyphs|
  {
    if glyphs == [] then {} else {glyphs[0].texture} + Textures(glyphs[1..])
  }

  lemma {:induction false} TexturesAreUsed(glyphs: seq<Glyph>, t: TextureId)
    ensures t in Textures(glyphs) <==> GlyphsOn(glyphs, t) > 0
    decreases |glyphs|
  {
    if glyphs != [] {
      TexturesAreUsed(glyphs[1..], t);
    }
  }

  lemma {:induction false} GlyphsOnAppend(a: seq<Glyph>, b: seq<Glyph>, t: TextureId)
    ensures GlyphsOn(a + b, t) == GlyphsOn(a, t) + GlyphsOn(b, t)
    decreases |a|
  {
    if a == [] {
      assert a + b == b;
    } else {
      assert (a + b)[0] == a[0];
      assert (a + b)[1..] == a[1..] + b;
      GlyphsOnAppend(a[1..], b, t);
    }
  }

  /** The number of earlier glyphs on glyph `i`'s texture: its rank there. */
  function Rank(glyphs: seq<Glyph>, i: nat): nat
    requires i < |glyphs|
  {
    GlyphsOn(glyphs[..i], glyphs[i].texture)
  }

  lemma RankBelowCount(glyphs: seq<Glyph>, i: nat)
    requires i < |glyphs|
    ensures Rank(glyphs, i) < GlyphsOn(glyphs, glyphs[i].texture)
  {
    var t := glyphs[i].texture;
    assert glyphs == glyphs[..i] + glyphs[i..];
    GlyphsOnAppend(glyphs[..i], glyphs[i..], t);
  }

  /** A glyph's texture is among the used ones. */
  lemma GlyphTextureUsed(glyphs: seq<Glyph>, i: nat)
    requires i < |glyphs|
    ensures glyphs[i].texture in Textures(glyphs) && GlyphsOn(glyphs, glyphs[i].texture) > 0
  {
    RankBelowCount(glyphs, i);
    TexturesAreUsed(glyphs, glyphs[i].texture);
  }

  /** Glyphs on the same texture have different ranks. */
  lemma RanksDiffer(glyphs: seq<Glyph>, i: nat, k: nat)
    requires i < k < |glyphs| && glyphs[i].texture == glyphs[k].texture
    ensures Rank(glyphs, i) < Rank(glyphs, k)
  {
    var t := glyphs[i].texture;
    assert glyphs[..k] == glyphs[..i] + glyphs[i..k];
    GlyphsOnAppend(glyphs[..i], glyphs[i..k], t);
    assert glyphs[i..k][0] == glyphs[i];
  }

  lemma PrefixCount(glyphs: seq<Glyph>, i: nat, t: TextureId)
    requires 0 < i <= |glyphs|
    ensures GlyphsOn(glyphs[..i], t) == (if glyphs[0].texture == t then 1 else 0) + GlyphsOn(glyphs[1..][..i - 1], t)
  {
    assert glyphs[..i][1..] == glyphs[1..][..i - 1];
  }

  /** The counting loop: every glyph adds one to its texture's count,
      inserting a zero entry for a texture not in the map yet. */
  function CountGlyphs(infos: RenderInfos, glyphs: seq<Glyph>): (r: RenderInfos)
    ensures r.Keys == infos.Keys + Textures(glyphs)
    decreases |glyphs|
  {
    if glyphs == [] then infos
    else
      var t := glyphs[0].texture;
      var indices := if t in infos then infos[t] else RenderIndices(0, 0);
      CountGlyphs(infos[t := indices.(count := indices.count + 1)], glyphs[1..])
  }

  /** After counting, each texture's count grew by its number of glyphs;
      range starts are untouched and new textures start at zero. */
  lemma {:induction false} CountGlyphsCounts(infos: RenderInfos, glyphs: seq<Glyph>, t: TextureId)
    requires t in CountGlyphs(infos, glyphs)
    ensures CountGlyphs(infos, glyphs)[t].first == (if t in infos then infos[t].first else 0)
    ensures CountGlyphs(infos, glyphs)[t].count == (if t in infos then infos[t].count else 0) + GlyphsOn(glyphs, t)
    decreases |glyphs|
  {
    if glyphs != [] {
      var u := glyphs[0].texture;
      var indices := if u in infos then infos[u] else RenderIndices(0, 0);
      CountGlyphsCounts(infos[u := indices.(count := indices.count + 1)], glyphs[1..], t);
    }
  }

  // ---------------------------------------------------------------------
  // Assigning ranges
  // ---------------------------------------------------------------------

  /** The sum of the counts of `keys`. */
  function SumCounts(infos: RenderInfos, keys: seq<TextureId>): nat
    requires forall i :: 0 <= i < |keys| ==> keys[i] in infos
    decreases |keys|
  {
    if keys == [] then 0 else infos[keys[0]].count + SumCounts(infos, keys[1..])
  }

  lemma {:induction false} SumCountsFrame(infos: RenderInfos, t: TextureId, v: RenderIndices, keys: seq<TextureId>)
    requires forall i :: 0 <= i < |keys| ==> keys[i] in infos && keys[i] != t
    ensures SumCounts(infos[t := v], keys) == SumCounts(infos, keys)
    decreases |keys|
  {
    if keys != [] {
      SumCountsFrame(infos, t, v, keys[1..]);
    }
  }

  /** The range-assignment loop over `keys` (the map's iteration order):
      each texture's range starts where the previous one ended, and its
      count is reset to serve as a cursor for the placement loop. */
  function AssignRanges(infos: RenderInfos, keys: seq<TextureId>, index: nat): (r: RenderInfos)
    requires Distinct(keys)
    requires forall i :: 0 <= i < |keys| ==> keys[i] in infos
    ensures r.Keys == infos.Keys
    decreases |keys|
  {
    if keys == [] then infos
    else
      var t := keys[0];
      var tail := keys[1..];
      assert forall i :: 0 <= i < |tail| ==> tail[i] == keys[i + 1];
      AssignRanges(infos[t := RenderIndices(index, 0)], tail, index + infos[t].count)
  }

  /** Textures not in `keys` keep their entry. */
  lemma {:induction false} AssignRangesFrame(infos: RenderInfos, keys: seq<TextureId>, index: nat, t: TextureId)
    requires Distinct(keys)
    requires forall i :: 0 <= i < |keys| ==> keys[i] in infos
    requires t in infos && t !in keys
    ensures AssignRanges(infos, keys, index)[t] == infos[t]
    decreases |keys|
  {
    if keys != [] {
      var tail := keys[1..];
      assert forall i :: 0 <= i < |tail| ==> tail[i] == keys[i + 1];
      AssignRangesFrame(infos[keys[0] := RenderIndices(index, 0)], tail, index + infos[keys[0]].count, t);
    }
  }

  /** The assigned ranges follow one another along `keys` from `index`,
      with every count reset. */
  lemma {:induction false} AssignRangesChain(infos: RenderInfos, keys: seq<TextureId>, index: nat)
    requires Distinct(keys)
    requires forall i :: 0 <= i < |keys| ==> keys[i] in infos
    ensures forall i :: 0 <= i < |keys| ==> AssignRanges(infos, keys, index)[keys[i]].count == 0
    ensures |keys| > 0 ==> AssignRanges(infos, keys, index)[keys[0]].first == index
    ensures forall i :: 0 <= i < |keys| - 1 ==>
      AssignRanges(infos, keys, index)[keys[i + 1]].first == AssignRanges(infos, keys, index)[keys[i]].first + infos[keys[i]].count
    ensures |keys| > 0 ==>
      AssignRanges(infos, keys, index)[keys[|keys| - 1]].first + infos[keys[|keys| - 1]].count == index + SumCounts(infos, keys)
    decreases |keys|
  {
    if keys != [] {
      var t := keys[0];
      var next := infos[t := RenderIndices(index, 0)];
      var tail := keys[1..];
      assert forall i :: 0 <= i < |tail| ==> tail[i] == keys[i + 1] && tail[i] != t;
      SumCountsFrame(infos, t, RenderIndices(index, 0), tail);
      AssignRangesChain(next, tail, index + infos[t].count);
      AssignRangesFrame(next, tail, index + infos[t].count, t);
    }
  }

  /** Counting followed by range assignment, starting from `infos`. */
  function Assigned(infos: RenderInfos, glyphs: seq<Glyph>): (r: RenderInfos)
    ensures r.Keys == infos.Keys + Textures(glyphs)
    ensures forall t :: t in r ==> r[t].count == 0
  {
    var counted := CountGlyphs(infos, glyphs);
    var order := Ascending(counted.Keys);
    IncreasingIsDistinct(order);
    AssignRangesChain(counted, order, 0);
    AssignRanges(counted, order, 0)
  }

  // ---------------------------------------------------------------------
  // Tiled ranges
  // ---------------------------------------------------------------------

  /** Along `order`, the ranges follow one another, the first starting at
      quad 0 and the last ending at quad `n`. */
  predicate Chained(infos: RenderInfos, order: seq<TextureId>, n: nat) {
    && (forall i :: 0 <= i < |order| ==> order[i] in infos)
    && (order == [] ==> n == 0)
    && (order != [] ==>
          && infos[order[0]].first == 0
          && infos[order[|order| - 1]].first + infos[order[|order| - 1]].count == n)
    && (forall i :: 0 <= i < |order| - 1 ==> infos[order[i + 1]].first == infos[order[i]].first + infos[order[i]].count)
  }

  /** The ranges follow one another in the map's iteration order and cover
      the quads `[0, n)`. */
  predicate Tiled(infos: RenderInfos, n: nat) {
    Chained(infos, Ascending(infos.Keys), n)
  }

  /** Quad `q` lies in the range of `indices`. */
  predicate InRange(q: int, indices: RenderIndices) {
    indices.first <= q < indices.first + indices.count
  }

  lemma {:induction false} ChainedOrdered(infos: RenderInfos, order: seq<TextureId>, n: nat, i: nat, j: nat)
    requires Chained(infos, order, n)
    requires i < j < |order|
    ensures infos[order[i]].first + infos[order[i]].count <= infos[order[j]].first
    decreases j - i
  {
    if j > i + 1 {
      ChainedOrdered(infos, order, n, i, j - 1);
    }
  }

  lemma ChainedBelow(infos: RenderInfos, order: seq<TextureId>, n: nat, i: nat)
    requires Chained(infos, order, n)
    requires i < |order|
    ensures infos[order[i]].first + infos[order[i]].count <= n
  {
    if i < |order| - 1 {
      ChainedOrdered(infos, order, n, i, |order| - 1);
    }
  }

  /** Tiled ranges stay below `n`. */
  lemma TiledBelow(infos: RenderInfos, n: nat, t: TextureId)
    requires Tiled(infos, n) && t in infos
    ensures infos[t].first + infos[t].count <= n
  {
    var order := Ascending(infos.Keys);
    assert t in infos.Keys;
    var i :| 0 <= i < |order| && order[i] == t;
    ChainedBelow(infos, order, n, i);
  }

  /** Tiled ranges of different textures do not overlap. */
  lemma TiledDisjoint(infos: RenderInfos, n: nat, t: TextureId, u: TextureId)
    requires Tiled(infos, n) && t in infos && u in infos && t != u
    ensures infos[t].first + infos[t].count <= infos[u].first || infos[u].first + infos[u].count <= infos[t].first
  {
    var order := Ascending(infos.Keys);
    assert t in infos.Keys && u in infos.Keys;
    var i :| 0 <= i < |order| && order[i] == t;
    var j :| 0 <= j < |order| && order[j] == u;
    if i < j {
      ChainedOrdered(infos, order, n, i, j);
    } else {
      ChainedOrdered(infos, order, n, j, i);
    }
  }

  lemma {:induction false} ChainedCoversFrom(infos: RenderInfos, order: seq<TextureId>, n: nat, q: nat, i: nat)
    requires Chained(infos, order, n)
    requires i < |order|
    requires infos[order[i]].first <= q < n
    ensures exists t :: t in infos && InRange(q, infos[t])
    decreases |order| - i
  {
    if !InRange(q, infos[order[i]]) {
      assert i < |order| - 1;
      ChainedCoversFrom(infos, order, n, q, i + 1);
    }
  }

  /** Every quad below `n` lies in some range. */
  lemma TiledCovers(infos: RenderInfos, n: nat, q: nat)
    requires Tiled(infos, n) && q < n
    ensures exists t :: t in infos && InRange(q, infos[t])
  {
    ChainedCoversFrom(infos, Ascending(infos.Keys), n, q, 0);
  }

  // ---------------------------------------------------------------------
  // Placing glyphs
  // ---------------------------------------------------------------------

  /** The next free quad of texture `t`'s range during placement. */
  function Cursor(infos: RenderInfos, t: TextureId): nat
    requires t in infos
  {
    infos[t].first + infos[t].count
  }

  /** The quad glyph `i` is written to. */
  function Slot(infos: RenderInfos, glyphs: seq<Glyph>, i: nat): nat
    requires i < |glyphs| && glyphs[i].texture in infos
  {
    Cursor(infos, glyphs[i].texture) + Rank(glyphs, i)
  }

  /** Every texture still to be placed from has its remaining quads inside
      an array of `n` vertices. */
  predicate Room(infos: RenderInfos, glyphs: seq<Glyph>, n: nat) {
    && Textures(glyphs) <= infos.Keys
    && forall t {:trigger Cursor(infos, t)} :: t in infos && GlyphsOn(glyphs, t) > 0 ==> (Cursor(infos, t) + GlyphsOn(glyphs, t)) * 4 <= n
  }

  /** The quads still to be written for different textures do not overlap. */
  predicate SeparateWindows(infos: RenderInfos, glyphs: seq<Glyph>) {
    forall t, u {:trigger Cursor(infos, t), Cursor(infos, u)} :: t in infos && u in infos && t != u && GlyphsOn(glyphs, t) > 0 && GlyphsOn(glyphs, u) > 0 ==>
      Cursor(infos, t) + GlyphsOn(glyphs, t) <= Cursor(infos, u) || Cursor(infos, u) + GlyphsOn(glyphs, u) <= Cursor(infos, t)
  }

  /** Write the four texture coordinates of glyph `g` at vertex `base`. */
  function SetTexCoords(vertices: seq<Vertex>, base: nat, g: Glyph): (r: seq<Vertex>)
    requires base + 4 <= |vertices|
    ensures |r| == |vertices|
    ensures forall k :: 0 <= k < |r| && !(base <= k < base + 4) ==> r[k] == vertices[k]
    ensures forall k :: 0 <= k < |r| ==> r[k].shade == vertices[k].shade
    ensures forall j :: 0 <= j < 4 ==> r[base + j] == vertices[base + j].(uv := UVOf(g, j))
  {
    vertices[..base]
      + [vertices[base].(uv := UVOf(g, 0)), vertices[base + 1].(uv := UVOf(g, 1)),
         vertices[base + 2].(uv := UVOf(g, 2)), vertices[base + 3].(uv := UVOf(g, 3))]
      + vertices[base + 4..]
  }

  /** Write the four local vertices of glyph `g` at vertex `base`. */
  function SetLocals(locals: seq<LocalVertex>, base: nat, g: Glyph): (r: seq<LocalVertex>)
    requires base + 4 <= |locals|
    ensures |r| == |locals|
    ensures forall k :: 0 <= k < |r| && !(base <= k < base + 4) ==> r[k] == locals[k]
    ensures forall j :: 0 <= j < 4 ==> r[base + j] == LocalOf(g, j)
  {
    locals[..base] + [LocalOf(g, 0), LocalOf(g, 1), LocalOf(g, 2), LocalOf(g, 3)] + locals[base + 4..]
  }

  /** The placement loop: each glyph's quad goes to the cursor of its
      texture's range, which then advances by one quad. This is the
      corrected placement: the local vertices are written to the same
      texture slot as the final vertices, whereas the source appends them in
      glyph order (`GlyphOrderLocals`, used by `SetTextAsWritten`). */
  function PlaceGlyphs(infos: RenderInfos, vertices: seq<Vertex>, locals: seq<LocalVertex>, glyphs: seq<Glyph>): (r: Placed)
    requires |locals| == |vertices|
    requires Room(infos, glyphs, |vertices|)
    ensures r.infos.Keys == infos.Keys
    ensures |r.vertices| == |vertices| && |r.locals| == |vertices|
    decreases |glyphs|
  {
    if glyphs == [] then Placed(infos, vertices, locals)
    else
      var g := glyphs[0];
      var indices := infos[g.texture];
      var base := (indices.first + indices.count) * 4;
      var next := infos[g.texture := indices.(count := indices.count + 1)];
      StepRoom(infos, glyphs, next, |vertices|);
      PlaceGlyphs(next, SetTexCoords(vertices, base, g), SetLocals(locals, base, g), glyphs[1..])
  }

  /** Placement advances each range's count by the number of its glyphs
      and keeps its start. */
  lemma {:induction false} PlacedCounts(infos: RenderInfos, vertices: seq<Vertex>, locals: seq<LocalVertex>, glyphs: seq<Glyph>, t: TextureId)
    requires |locals| == |vertices| && Room(infos, glyphs, |vertices|) && t in infos
    ensures PlaceGlyphs(infos, vertices, locals, glyphs).infos[t] == RenderIndices(infos[t].first, infos[t].count + GlyphsOn(glyphs, t))
    decreases |glyphs|
  {
    if glyphs != [] {
      var g := glyphs[0];
      var indices := infos[g.texture];
      var base := (indices.first + indices.count) * 4;
      var next := infos[g.texture := indices.(count := indices.count + 1)];
      StepRoom(infos, glyphs, next, |vertices|);
      PlacedCounts(next, SetTexCoords(vertices, base, g), SetLocals(locals, base, g), glyphs[1..], t);
    }
  }

  /** Placement writes texture coordinates only: every vertex keeps its shade. */
  lemma {:induction false} PlacedShade(infos: RenderInfos, vertices: seq<Vertex>, locals: seq<LocalVertex>, glyphs: seq<Glyph>, k: nat)
    requires |locals| == |vertices| && Room(infos, glyphs, |vertices|) && k < |vertices|
    ensures PlaceGlyphs(infos, vertices, locals, glyphs).vertices[k].shade == vertices[k].shade
    decreases |glyphs|
  {
    if glyphs != [] {
      var g := glyphs[0];
      var indices := infos[g.texture];
      var base := (indices.first + indices.count) * 4;
      var next := infos[g.texture := indices.(count := indices.count + 1)];
      StepRoom(infos, glyphs, next, |vertices|);
      PlacedShade(next, SetTexCoords(vertices, base, g), SetLocals(locals, base, g), glyphs[1..], k);
    }
  }

  /** One step of the placement loop: the first glyph's quad is written at
      its texture's cursor, then the rest are placed. */
  lemma PlaceUnfold(infos: RenderInfos, vertices: seq<Vertex>, locals: seq<LocalVertex>, glyphs: seq<Glyph>, next: RenderInfos, base: nat)
    requires |locals| == |vertices| && Room(infos, glyphs, |vertices|) && |glyphs| > 0
    requires next == infos[glyphs[0].texture := infos[glyphs[0].texture].(count := infos[glyphs[0].texture].count + 1)]
    requires base == Cursor(infos, glyphs[0].texture) * 4
    ensures base + 4 <= |vertices| && Room(next, glyphs[1..], |vertices|)
    ensures PlaceGlyphs(infos, vertices, locals, glyphs)
         == PlaceGlyphs(next, SetTexCoords(vertices, base, glyphs[0]), SetLocals(locals, base, glyphs[0]), glyphs[1..])
  {
    StepRoom(infos, glyphs, next, |vertices|);
  }

  /** Placing the first glyph moves its texture's cursor by one quad and
      leaves every window's end where it was. */
  lemma StepCursor(infos: RenderInfos, glyphs: seq<Glyph>, next: RenderInfos)
    requires |glyphs| > 0 && glyphs[0].texture in infos
    requires next == infos[glyphs[0].texture := infos[glyphs[0].texture].(count := infos[glyphs[0].texture].count + 1)]
    ensures forall t :: t in infos ==> Cursor(infos, t) + GlyphsOn(glyphs, t) == Cursor(next, t) + GlyphsOn(glyphs[1..], t)
    ensures forall t :: t in infos ==> Cursor(infos, t) <= Cursor(next, t)
  {
  }

  lemma StepRoom(infos: RenderInfos, glyphs: seq<Glyph>, next: RenderInfos, n: nat)
    requires |glyphs| > 0 && Room(infos, glyphs, n)
    requires next == infos[glyphs[0].texture := infos[glyphs[0].texture].(count := infos[glyphs[0].texture].count + 1)]
    ensures glyphs[0].texture in infos && (Cursor(infos, glyphs[0].texture) + 1) * 4 <= n
    ensures Room(next, glyphs[1..], n)
  {
    StepCursor(infos, glyphs, next);
    assert glyphs[0].texture in Textures(glyphs);
    assert Cursor(infos, glyphs[0].texture) + GlyphsOn(glyphs, glyphs[0].texture) >= Cursor(infos, glyphs[0].texture) + 1;
  }

  lemma StepSeparate(infos: RenderInfos, glyphs: seq<Glyph>, next: RenderInfos)
    requires |glyphs| > 0 && glyphs[0].texture in infos && SeparateWindows(infos, glyphs)
    requires next == infos[glyphs[0].texture := infos[glyphs[0].texture].(count := infos[glyphs[0].texture].count + 1)]
    ensures SeparateWindows(next, glyphs[1..])
  {
    StepCursor(infos, glyphs, next);
  }

  /** Vertex `k` lies outside the window of every texture that still has
      glyphs to place. */
  predicate Outside(infos: RenderInfos, glyphs: seq<Glyph>, k: nat) {
    forall t {:trigger Cursor(infos, t)} :: t in infos && GlyphsOn(glyphs, t) > 0 ==>
      !(Cursor(infos, t) * 4 <= k < (Cursor(infos, t) + GlyphsOn(glyphs, t)) * 4)
  }

  /** Placement leaves alone every vertex outside the quads still to be written. */
  lemma {:induction false} PlaceFrame(infos: RenderInfos, vertices: seq<Vertex>, locals: seq<LocalVertex>, glyphs: seq<Glyph>, k: nat)
    requires |locals| == |vertices| && Room(infos, glyphs, |vertices|) && k < |vertices|
    requires Outside(infos, glyphs, k)
    ensures PlaceGlyphs(infos, vertices, locals, glyphs).vertices[k] == vertices[k]
    ensures PlaceGlyphs(infos, vertices, locals, glyphs).locals[k] == locals[k]
    decreases |glyphs|
  {
    if glyphs != [] {
      var g := glyphs[0];
      var indices := infos[g.texture];
      var base := (indices.first + indices.count) * 4;
      var next := infos[g.texture := indices.(count := indices.count + 1)];
      StepRoom(infos, glyphs, next, |vertices|);
      StepOutside(infos, glyphs, next, k);
      PlaceFrame(next, SetTexCoords(vertices, base, g), SetLocals(locals, base, g), glyphs[1..], k);
    }
  }

  /** A vertex outside every window stays outside the first glyph's quad and
      outside the windows of the glyphs after it. */
  lemma StepOutside(infos: RenderInfos, glyphs: seq<Glyph>, next: RenderInfos, k: nat)
    requires |glyphs| > 0 && glyphs[0].texture in infos
    requires next == infos[glyphs[0].texture := infos[glyphs[0].texture].(count := infos[glyphs[0].texture].count + 1)]
    requires Outside(infos, glyphs, k)
    ensures !(Cursor(infos, glyphs[0].texture) * 4 <= k < Cursor(infos, glyphs[0].texture) * 4 + 4)
    ensures Outside(next, glyphs[1..], k)
  {
    StepCursor(infos, glyphs, next);
    assert GlyphsOn(glyphs, glyphs[0].texture) > 0;
  }

  /** The quad of the first glyph lies outside the windows of the glyphs
      after it. */
  lemma FirstOutsideRest(infos: RenderInfos, glyphs: seq<Glyph>, next: RenderInfos, j: nat)
    requires |glyphs| > 0 && glyphs[0].texture in infos && SeparateWindows(infos, glyphs) && j < 4
    requires next == infos[glyphs[0].texture := infos[glyphs[0].texture].(count := infos[glyphs[0].texture].count + 1)]
    ensures Outside(next, glyphs[1..], Cursor(infos, glyphs[0].texture) * 4 + j)
  {
    StepCursor(infos, glyphs, next);
    forall t | t in next && GlyphsOn(glyphs[1..], t) > 0
      ensures !(Cursor(next, t) * 4 <= Cursor(infos, glyphs[0].texture) * 4 + j < (Cursor(next, t) + GlyphsOn(glyphs[1..], t)) * 4)
    {
      if t != glyphs[0].texture {
        assert GlyphsOn(glyphs, t) > 0;
      }
    }
  }

  /** Corner `j` of quad `q` holds glyph `g`'s texture coordinates and
      local vertex. */
  predicate Writes(p: Placed, q: nat, g: Glyph, j: nat)
    requires j < 4
  {
    && q * 4 + j < |p.vertices|
    && q * 4 + j < |p.locals|
    && p.vertices[q * 4 + j].uv == UVOf(g, j)
    && p.locals[q * 4 + j] == LocalOf(g, j)
  }

  /** The first glyph's quad is written at its texture's cursor and is not
      overwritten by the glyphs after it. */
  lemma PlacedFirst(infos: RenderInfos, vertices: seq<Vertex>, locals: seq<LocalVertex>, glyphs: seq<Glyph>, j: nat)
    requires |locals| == |vertices| && Room(infos, glyphs, |vertices|) && SeparateWindows(infos, glyphs)
    requires 0 < |glyphs| && j < 4
    ensures Writes(PlaceGlyphs(infos, vertices, locals, glyphs), Slot(infos, glyphs, 0), glyphs[0], j)
  {
    assert Rank(glyphs, 0) == 0 by { assert glyphs[..0] == []; }
    var g := glyphs[0];
    var next := infos[g.texture := infos[g.texture].(count := infos[g.texture].count + 1)];
    var base := Cursor(infos, g.texture) * 4;
    PlaceUnfold(infos, vertices, locals, glyphs, next, base);
    var v' := SetTexCoords(vertices, base, g);
    var l' := SetLocals(locals, base, g);
    FirstOutsideRest(infos, glyphs, next, j);
    PlaceFrame(next, v', l', glyphs[1..], base + j);
    assert Slot(infos, glyphs, 0) == Cursor(infos, g.texture);
    assert v'[base + j].uv == UVOf(g, j) && l'[base + j] == LocalOf(g, j);
    assert Writes(PlaceGlyphs(next, v', l', glyphs[1..]), Slot(infos, glyphs, 0), g, j);
  }

  /** Once the first glyph is placed, a later glyph keeps its slot. */
  lemma SlotStep(infos: RenderInfos, glyphs: seq<Glyph>, next: RenderInfos, i: nat)
    requires 0 < i < |glyphs| && glyphs[0].texture in infos && glyphs[i].texture in infos
    requires next == infos[glyphs[0].texture := infos[glyphs[0].texture].(count := infos[glyphs[0].texture].count + 1)]
    ensures glyphs[1..][i - 1] == glyphs[i]
    ensures Slot(next, glyphs[1..], i - 1) == Slot(infos, glyphs, i)
  {
    PrefixCount(glyphs, i, glyphs[i].texture);
  }

  /** What the placement of a later glyph needs from the first step. */
  lemma LaterGlyphStep(infos: RenderInfos, vertices: seq<Vertex>, locals: seq<LocalVertex>, glyphs: seq<Glyph>, next: RenderInfos, base: nat, i: nat)
    requires |locals| == |vertices| && Room(infos, glyphs, |vertices|) && SeparateWindows(infos, glyphs)
    requires 0 < i < |glyphs| && glyphs[i].texture in infos
    requires next == infos[glyphs[0].texture := infos[glyphs[0].texture].(count := infos[glyphs[0].texture].count + 1)]
    requires base == Cursor(infos, glyphs[0].texture) * 4
    ensures base + 4 <= |vertices|
    ensures |SetLocals(locals, base, glyphs[0])| == |SetTexCoords(vertices, base, glyphs[0])|
    ensures Room(next, glyphs[1..], |SetTexCoords(vertices, base, glyphs[0])|)
    ensures SeparateWindows(next, glyphs[1..])
    ensures glyphs[1..][i - 1] == glyphs[i] && glyphs[i].texture in next
    ensures Slot(next, glyphs[1..], i - 1) == Slot(infos, glyphs, i)
    ensures PlaceGlyphs(infos, vertices, locals, glyphs)
         == PlaceGlyphs(next, SetTexCoords(vertices, base, glyphs[0]), SetLocals(locals, base, glyphs[0]), glyphs[1..])
  {
    PlaceUnfold(infos, vertices, locals, glyphs, next, base);
    StepSeparate(infos, glyphs, next);
    SlotStep(infos, glyphs, next, i);
  }

  /** Placement writes glyph `i`'s texture coordinates and local vertices
      into its slot: quad `Cursor + Rank` of its texture's range. */
  lemma {:induction false} PlacedAt(infos: RenderInfos, vertices: seq<Vertex>, locals: seq<LocalVertex>, glyphs: seq<Glyph>, i: nat, j: nat)
    requires |locals| == |vertices| && Room(infos, glyphs, |vertices|) && SeparateWindows(infos, glyphs)
    requires i < |glyphs| && glyphs[i].texture in infos && j < 4
    ensures Writes(PlaceGlyphs(infos, vertices, locals, glyphs), Slot(infos, glyphs, i), glyphs[i], j)
    decreases |glyphs|
  {
    if i == 0 {
      PlacedFirst(infos, vertices, locals, glyphs, j);
    } else {
      var g := glyphs[0];
      var next := infos[g.texture := infos[g.texture].(count := infos[g.texture].count + 1)];
      var base := Cursor(infos, g.texture) * 4;
      LaterGlyphStep(infos, vertices, locals, glyphs, next, base, i);
      PlacedAt(next, SetTexCoords(vertices, base, g), SetLocals(locals, base, g), glyphs[1..], i - 1, j);
    }
  }

  // ---------------------------------------------------------------------
  // Layout of a fresh text
  // ---------------------------------------------------------------------

  /** The sum over distinct `keys` of the glyph counts. */
  function SumOn(glyphs: seq<Glyph>, keys: seq<TextureId>): nat
    decreases |keys|
  {
    if keys == [] then 0 else GlyphsOn(glyphs, keys[0]) + SumOn(glyphs, keys[1..])
  }

  /** How many times `t` occurs in `keys`. */
  function Occurrences(keys: seq<TextureId>, t: TextureId): nat
    decreases |keys|
  {
    if keys == [] then 0 else (if keys[0] == t then 1 else 0) + Occurrences(keys[1..], t)
  }

  lemma {:induction false} OccursOnce(keys: seq<TextureId>, t: TextureId)
    requires Distinct(keys)
    ensures Occurrences(keys, t) == (if t in keys then 1 else 0)
    decreases |keys|
  {
    if keys != [] {
      assert forall i :: 0 <= i < |keys[1..]| ==> keys[1..][i] == keys[i + 1];
      OccursOnce(keys[1..], t);
      assert t in keys <==> t == keys[0] || t in keys[1..];
    }
  }

  lemma {:induction false} SumOnFirstGlyph(glyphs: seq<Glyph>, keys: seq<TextureId>)
    requires glyphs != []
    ensures SumOn(glyphs, keys) == SumOn(glyphs[1..], keys) + Occurrences(keys, glyphs[0].texture)
    decreases |keys|
  {
    if keys != [] {
      SumOnFirstGlyph(glyphs, keys[1..]);
    }
  }

  /** Summed over a list naming every used texture once, the counts add up
      to the number of glyphs. */
  lemma {:induction false} SumOnIsGlyphCount(glyphs: seq<Glyph>, keys: seq<TextureId>)
    requires Distinct(keys)
    requires forall t :: t in Textures(glyphs) ==> t in keys
    ensures SumOn(glyphs, keys) == |glyphs|
    decreases |glyphs|
  {
    if glyphs == [] {
      SumOnEmpty(keys);
    } else {
      SumOnFirstGlyph(glyphs, keys);
      OccursOnce(keys, glyphs[0].texture);
      SumOnIsGlyphCount(glyphs[1..], keys);
    }
  }

  lemma {:induction false} SumOnEmpty(keys: seq<TextureId>)
    ensures SumOn([], keys) == 0
    decreases |keys|
  {
    if keys != [] {
      SumOnEmpty(keys[1..]);
    }
  }

  lemma {:induction false} SumCountsIsSumOn(infos: RenderInfos, glyphs: seq<Glyph>, keys: seq<TextureId>)
    requires forall i :: 0 <= i < |keys| ==> keys[i] in infos && infos[keys[i]].count == GlyphsOn(glyphs, keys[i])
    ensures SumCounts(infos, keys) == SumOn(glyphs, keys)
    decreases |keys|
  {
    if keys != [] {
      SumCountsIsSumOn(infos, glyphs, keys[1..]);
    }
  }

  /** The ranges assigned for `glyphs`, with their final counts. */
  function Windows(a: RenderInfos, glyphs: seq<Glyph>): RenderInfos {
    map t | t in a :: RenderIndices(a[t].first, GlyphsOn(glyphs, t))
  }

  /** Range assignment over `order` with each texture's glyph count gives
      chained windows. */
  lemma AssignedWindowsChained(counted: RenderInfos, order: seq<TextureId>, glyphs: seq<Glyph>)
    requires Distinct(order)
    requires forall i :: 0 <= i < |order| ==> order[i] in counted && counted[order[i]].count == GlyphsOn(glyphs, order[i])
    ensures Chained(Windows(AssignRanges(counted, order, 0), glyphs), order, SumCounts(counted, order))
  {
    AssignRangesChain(counted, order, 0);
  }

  /** Starting from an empty map, the assigned ranges of the used textures,
      each as long as its glyph count, tile the quads `[0, |glyphs|)`. */
  lemma AssignedFresh(glyphs: seq<Glyph>)
    ensures Assigned(map[], glyphs) == AssignRanges(CountGlyphs(map[], glyphs), Ascending(CountGlyphs(map[], glyphs).Keys), 0)
  {
  }

  lemma WindowsKeys(a: RenderInfos, glyphs: seq<Glyph>)
    ensures Windows(a, glyphs).Keys == a.Keys
  {
  }

  lemma ChainedIsTiled(infos: RenderInfos, order: seq<TextureId>, m: nat, n: nat)
    requires Chained(infos, order, m) && m == n && order == Ascending(infos.Keys)
    ensures Tiled(infos, n)
  {
  }

  lemma FreshAssignment(glyphs: seq<Glyph>)
    ensures Tiled(Windows(Assigned(map[], glyphs), glyphs), |glyphs|)
  {
    var counted := CountGlyphs(map[], glyphs);
    var order := Ascending(counted.Keys);
    IncreasingIsDistinct(order);
    var a := AssignRanges(counted, order, 0);
    AssignedFresh(glyphs);
    WindowsKeys(a, glyphs);
    assert Windows(a, glyphs).Keys == counted.Keys;
    forall i | 0 <= i < |order| ensures order[i] in counted && counted[order[i]].count == GlyphsOn(glyphs, order[i]) {
      assert order[i] in counted.Keys;
      CountGlyphsCounts(map[], glyphs, order[i]);
    }
    AssignedWindowsChained(counted, order, glyphs);
    SumCountsIsSumOn(counted, glyphs, order);
    assert forall t :: t in Textures(glyphs) ==> t in order by {
      assert forall t :: t in Textures(glyphs) ==> t in counted.Keys;
    }
    SumOnIsGlyphCount(glyphs, order);
    ChainedIsTiled(Windows(a, glyphs), order, SumCounts(counted, order), |glyphs|);
  }

  /** Tiled windows leave room for every glyph and do not overlap. */
  lemma TiledWindowsFit(a: RenderInfos, glyphs: seq<Glyph>)
    requires forall t :: t in a ==> a[t].count == 0
    requires Textures(glyphs) <= a.Keys
    requires Tiled(Windows(a, glyphs), |glyphs|)
    ensures Room(a, glyphs, 4 * |glyphs|)
    ensures SeparateWindows(a, glyphs)
  {
    var w := Windows(a, glyphs);
    forall t | t in a && GlyphsOn(glyphs, t) > 0 ensures (Cursor(a, t) + GlyphsOn(glyphs, t)) * 4 <= 4 * |glyphs| {
      TiledBelow(w, |glyphs|, t);
    }
    forall t, u | t in a && u in a && t != u && GlyphsOn(glyphs, t) > 0 && GlyphsOn(glyphs, u) > 0
      ensures Cursor(a, t) + GlyphsOn(glyphs, t) <= Cursor(a, u) || Cursor(a, u) + GlyphsOn(glyphs, u) <= Cursor(a, t)
    {
      TiledDisjoint(w, |glyphs|, t, u);
    }
  }

  /** The fresh ranges leave room for every glyph. */
  lemma FreshRoom(glyphs: seq<Glyph>)
    ensures Room(Assigned(map[], glyphs), glyphs, 4 * |glyphs|)
  {
    FreshAssignment(glyphs);
    TiledWindowsFit(Assigned(map[], glyphs), glyphs);
  }

  /** The fresh ranges keep the quads of different textures apart. */
  lemma FreshSeparate(glyphs: seq<Glyph>)
    ensures SeparateWindows(Assigned(map[], glyphs), glyphs)
  {
    FreshAssignment(glyphs);
    TiledWindowsFit(Assigned(map[], glyphs), glyphs);
  }

  /** Placement from ranges with reset counts leaves each range as long as
      its texture's glyph count. */
  lemma PlacedIsWindows(a: RenderInfos, vertices: seq<Vertex>, locals: seq<LocalVertex>, glyphs: seq<Glyph>)
    requires |locals| == |vertices| && Room(a, glyphs, |vertices|)
    requires forall t :: t in a ==> a[t].count == 0
    ensures PlaceGlyphs(a, vertices, locals, glyphs).infos == Windows(a, glyphs)
  {
    var placed := PlaceGlyphs(a, vertices, locals, glyphs).infos;
    assert placed.Keys == Windows(a, glyphs).Keys;
    forall t | t in placed ensures placed[t] == Windows(a, glyphs)[t] {
      PlacedCounts(a, vertices, locals, glyphs, t);
    }
  }

  /** The fresh ranges are exactly the used textures. */
  lemma FreshWindowsKeys(glyphs: seq<Glyph>)
    ensures Windows(Assigned(map[], glyphs), glyphs).Keys == Textures(glyphs)
  {
    var a := Assigned(map[], glyphs);
    WindowsKeys(a, glyphs);
    var none: RenderInfos := map[];
    assert none.Keys == {};
    assert a.Keys == Textures(glyphs);
  }

  /** The quad of glyph `i` as found through the ranges: the start of its
      texture's range plus its rank among that texture's glyphs. */
  function QuadOf(infos: RenderInfos, glyphs: seq<Glyph>, i: nat): nat
    requires i < |glyphs| && glyphs[i].texture in infos
  {
    infos[glyphs[i].texture].first + Rank(glyphs, i)
  }

  /** Glyph `i`'s quad, found through the ranges, lies inside its
      texture's range. */
  predicate QuadInRange(p: Placed, glyphs: seq<Glyph>, i: nat)
    requires i < |glyphs|
  {
    glyphs[i].texture in p.infos && InRange(QuadOf(p.infos, glyphs, i), p.infos[glyphs[i].texture])
  }

  /** Corner `j` of glyph `i`'s quad holds that glyph's local vertex and
      texture coordinates. */
  predicate CornerHolds(p: Placed, glyphs: seq<Glyph>, i: nat, j: nat)
    requires i < |glyphs| && j < 4
  {
    glyphs[i].texture in p.infos && Writes(p, QuadOf(p.infos, glyphs, i), glyphs[i], j)
  }

  /** `p` draws `glyphs`: every glyph's quad, found through the ranges, lies
      inside its texture's range and holds that glyph's local vertices and
      texture coordinates. */
  predicate Laid(p: Placed, glyphs: seq<Glyph>) {
    && |p.vertices| == 4 * |glyphs|
    && |p.locals| == 4 * |glyphs|
    && (forall i :: 0 <= i < |glyphs| ==> QuadInRange(p, glyphs, i))
    && (forall i, j :: 0 <= i < |glyphs| && 0 <= j < 4 ==> CornerHolds(p, glyphs, i, j))
  }

  /** Glyph `i`'s quad after placement from ranges with reset counts. */
  lemma PlacedQuad(a: RenderInfos, vertices: seq<Vertex>, locals: seq<LocalVertex>, glyphs: seq<Glyph>, i: nat, j: nat)
    requires |locals| == |vertices| && Room(a, glyphs, |vertices|) && SeparateWindows(a, glyphs)
    requires forall t :: t in a ==> a[t].count == 0
    requires i < |glyphs| && j < 4
    ensures QuadInRange(PlaceGlyphs(a, vertices, locals, glyphs), glyphs, i)
    ensures CornerHolds(PlaceGlyphs(a, vertices, locals, glyphs), glyphs, i, j)
  {
    var p := PlaceGlyphs(a, vertices, locals, glyphs);
    GlyphTextureUsed(glyphs, i);
    RankBelowCount(glyphs, i);
    var t := glyphs[i].texture;
    assert t in a;
    PlacedCounts(a, vertices, locals, glyphs, t);
    PlacedFromStart(a, vertices, locals, glyphs, i, j);
    assert QuadOf(p.infos, glyphs, i) == a[t].first + Rank(glyphs, i);
  }

  /** Placement from ranges with reset counts, enough room and separate
      windows lays out every glyph. */
  lemma PlacedLaid(a: RenderInfos, vertices: seq<Vertex>, locals: seq<LocalVertex>, glyphs: seq<Glyph>)
    requires |vertices| == 4 * |glyphs| && |locals| == |vertices|
    requires Room(a, glyphs, |vertices|) && SeparateWindows(a, glyphs)
    requires forall t :: t in a ==> a[t].count == 0
    ensures Laid(PlaceGlyphs(a, vertices, locals, glyphs), glyphs)
  {
    var p := PlaceGlyphs(a, vertices, locals, glyphs);
    forall i | 0 <= i < |glyphs| ensures QuadInRange(p, glyphs, i) {
      PlacedQuad(a, vertices, locals, glyphs, i, 0);
    }
    forall i, j | 0 <= i < |glyphs| && 0 <= j < 4 ensures CornerHolds(p, glyphs, i, j) {
      PlacedQuad(a, vertices, locals, glyphs, i, j);
    }
  }

  /** Placement from the fresh ranges lays out every glyph. */
  lemma FreshPlacementLaid(a: RenderInfos, vertices: seq<Vertex>, locals: seq<LocalVertex>, glyphs: seq<Glyph>)
    requires a == Assigned(map[], glyphs)
    requires |vertices| == 4 * |glyphs| && |locals| == |vertices|
    ensures Room(a, glyphs, |vertices|)
    ensures Laid(PlaceGlyphs(a, vertices, locals, glyphs), glyphs)
  {
    FreshRoom(glyphs);
    FreshSeparate(glyphs);
    PlacedLaid(a, vertices, locals, glyphs);
  }

  /** The whole layout of a fresh text: ranges assigned from an empty map,
      then every glyph placed. */
  function FreshLayout(vertices: seq<Vertex>, locals: seq<LocalVertex>, glyphs: seq<Glyph>): (r: Placed)
    requires |vertices| == 4 * |glyphs| && |locals| == |vertices|
    ensures Laid(r, glyphs)
  {
    var a := Assigned(map[], glyphs);
    FreshPlacementLaid(a, vertices, locals, glyphs);
    PlaceGlyphs(a, vertices, locals, glyphs)
  }

  /** With reset counts, glyph `i` is placed at quad `first + Rank(i)` of
      its texture's range. */
  lemma PlacedFromStart(a: RenderInfos, vertices: seq<Vertex>, locals: seq<LocalVertex>, glyphs: seq<Glyph>, i: nat, j: nat)
    requires |locals| == |vertices| && Room(a, glyphs, |vertices|) && SeparateWindows(a, glyphs)
    requires forall t :: t in a ==> a[t].count == 0
    requires i < |glyphs| && glyphs[i].texture in a && j < 4
    ensures Writes(PlaceGlyphs(a, vertices, locals, glyphs), a[glyphs[i].texture].first + Rank(glyphs, i), glyphs[i], j)
  {
    PlacedAt(a, vertices, locals, glyphs, i, j);
    assert Slot(a, glyphs, i) == a[glyphs[i].texture].first + Rank(glyphs, i);
  }

  /** A fresh layout changes texture coordinates only: every vertex keeps
      its shade. */
  lemma FreshLayoutKeepsShade(vertices: seq<Vertex>, locals: seq<LocalVertex>, glyphs: seq<Glyph>, k: nat)
    requires |vertices| == 4 * |glyphs| && |locals| == |vertices| && k < |vertices|
    ensures FreshLayout(vertices, locals, glyphs).vertices[k].shade == vertices[k].shade
  {
    var a := Assigned(map[], glyphs);
    FreshRoom(glyphs);
    PlacedShade(a, vertices, locals, glyphs, k);
  }

  /** A fresh layout's ranges hold exactly the used textures, each as long
      as its glyph count, and together they tile the quads of the text. */
  lemma FreshLayoutTiles(vertices: seq<Vertex>, locals: seq<LocalVertex>, glyphs: seq<Glyph>)
    requires |vertices| == 4 * |glyphs| && |locals| == |vertices|
    ensures FreshLayout(vertices, locals, glyphs).infos.Keys == Textures(glyphs)
    ensures forall t :: t in FreshLayout(vertices, locals, glyphs).infos ==> FreshLayout(vertices, locals, glyphs).infos[t].count == GlyphsOn(glyphs, t)
    ensures Tiled(FreshLayout(vertices, locals, glyphs).infos, |glyphs|)
  {
    var a := Assigned(map[], glyphs);
    FreshRoom(glyphs);
    var p := PlaceGlyphs(a, vertices, locals, glyphs);
    assert FreshLayout(vertices, locals, glyphs) == p;
    PlacedIsWindows(a, vertices, locals, glyphs);
    FreshAssignment(glyphs);
    FreshWindowsKeys(glyphs);
  }

  /** In a laid-out, tiled text, different glyphs occupy different quads. */
  lemma LaidQuadsDistinct(p: Placed, glyphs: seq<Glyph>, i: nat, k: nat)
    requires Laid(p, glyphs) && Tiled(p.infos, |glyphs|)
    requires i < k < |glyphs|
    ensures glyphs[i].texture in p.infos && glyphs[k].texture in p.infos
    ensures QuadOf(p.infos, glyphs, i) != QuadOf(p.infos, glyphs, k)
  {
    assert QuadInRange(p, glyphs, i) && QuadInRange(p, glyphs, k);
    if glyphs[i].texture == glyphs[k].texture {
      RanksDiffer(glyphs, i, k);
    } else {
      TiledDisjoint(p.infos, |glyphs|, glyphs[i].texture, glyphs[k].texture);
    }
  }
}

=== FILE: software_buffer.dfy ===
/** The software buffer of the utility module: a byte array in main memory
    guarded by a `mapped` flag (the checks compiled in when the utility
    module is built in safe mode). Raw pointers become positions in the byte
    sequence and `memcpy` becomes a sequence splice. */
module SoftwareBuffer {

  /** nzUInt8 */
  newtype byte = x: int | 0 <= x < 0x100

  /** unsigned int, the type of sizes and offsets in the buffer interface */
  newtype uint32 = x: int | 0 <= x < 0x1_0000_0000

  /** The buffer's storage and whether it is currently mapped. */
  datatype Buffer = Buffer(bytes: seq<byte>, mapped: bool)

  /** A pointer returned by `Map`: null, or a position in the byte array. */
  datatype Pointer = Null | At(position: nat)

  datatype Created = Created(ok: bool, buffer: Buffer)

  datatype Filled = Filled(ok: bool, buffer: Buffer)

  datatype Mapping = Mapping(pointer: Pointer, buffer: Buffer)

  datatype Unmapped = Unmapped(ok: bool, errorReported: bool, buffer: Buffer)

  /** The positions `[offset, offset + size)` of the buffer. */
  predicate InRange(k: int, offset: uint32, size: uint32) {
    offset as int <= k < offset as int + size as int
  }

  /** `Create(size)`: allocate `size` bytes and leave the buffer unmapped.
      Whether the allocation throws is decided by the allocator, so it is a
      parameter; on failure the previous state is kept and false returned. */
  function Create(b: Buffer, size: uint32, allocationFails: bool): (r: Created)
    ensures allocationFails ==> !r.ok && r.buffer == b
    ensures !allocationFails ==> r.ok && |r.buffer.bytes| == size as int && !r.buffer.mapped
  {
    if allocationFails then Created(false, b)
    else Created(true, Buffer(seq(size as int, _ => 0 as byte), false))
  }

  /** `Fill(data, offset, size)`: copy `data[0..size)` into the buffer at
      `offset`, refused while the buffer is mapped. The copy itself is
      unchecked, so the caller must keep it inside both arrays. */
  function Fill(b: Buffer, data: seq<byte>, offset: uint32, size: uint32): (r: Filled)
    requires !b.mapped ==> offset as int + size as int <= |b.bytes| && size as int <= |data|
    ensures b.mapped ==> !r.ok && r.buffer == b
    ensures !b.mapped ==> r.ok && !r.buffer.mapped && |r.buffer.bytes| == |b.bytes|
    ensures !b.mapped ==> forall k :: 0 <= k < size as int ==> r.buffer.bytes[offset as int + k] == data[k]
    ensures !b.mapped ==> forall k :: 0 <= k < |b.bytes| && !InRange(k, offset, size) ==> r.buffer.bytes[k] == b.bytes[k]
  {
    if b.mapped then Filled(false, b)
    else
      var lo := offset as int;
      var hi := offset as int + size as int;
      Filled(true, b.(bytes := b.bytes[..lo] + data[..size] + b.bytes[hi..]))
  }

  /** Always false: the storage lives in main memory. */
  function IsHardware(b: Buffer): (r: bool)
    ensures !r
  {
    false
  }

  /** `Map(access, offset, size)`: hand out a pointer to position `offset`
      and mark the buffer mapped; a second map is refused with a null
      pointer. Access mode and size are ignored by the source. */
  function Map(b: Buffer, offset: uint32, size: uint32): (r: Mapping)
    ensures b.mapped ==> r.pointer == Null && r.buffer == b
    ensures !b.mapped ==> r.pointer == At(offset as int) && r.buffer.mapped && r.buffer.bytes == b.bytes
  {
    if b.mapped then Mapping(Null, b)
    else Mapping(At(offset as int), b.(mapped := true))
  }

  /** `Unmap()`: always succeeds and always leaves the buffer unmapped; an
      unmap of a buffer that was not mapped is reported as an error. */
  function Unmap(b: Buffer): (r: Unmapped)
    ensures r.ok && !r.buffer.mapped && r.buffer.bytes == b.bytes
    ensures r.errorReported <==> !b.mapped
  {
    if !b.mapped then Unmapped(true, true, b)
    else Unmapped(true, false, b.(mapped := false))
  }

  /** Mapping and then unmapping an unmapped buffer gives the buffer back. */
  lemma MapThenUnmap(b: Buffer, offset: uint32, size: uint32)
    requires !b.mapped
    ensures Unmap(Map(b, offset, size).buffer).buffer == b
    ensures !Unmap(Map(b, offset, size).buffer).errorReported
  {
  }

  /** While mapped, the buffer refuses a second map and every fill, and both
      leave it untouched; after the unmap a fill is accepted again. */
  lemma MappedIsExclusive(b: Buffer, offset: uint32, size: uint32, data: seq<byte>, at: uint32, n: uint32)
    requires !b.mapped
    requires at as int + n as int <= |b.bytes| && n as int <= |data|
    ensures var m := Map(b, offset, size).buffer;
      Map(m, offset, size) == Mapping(Null, m)
      && Fill(m, data, at, n) == Filled(false, m)
      && Fill(Unmap(m).buffer, data, at, n).ok
  {
  }

  /** A fill is visible through the pointer of a later map: the mapped
      window starting at the fill offset holds the copied bytes. */
  lemma FillThenMapReadsBack(b: Buffer, data: seq<byte>, offset: uint32, size: uint32)
    requires !b.mapped
    requires offset as int + size as int <= |b.bytes| && size as int <= |data|
    ensures var m := Map(Fill(b, data, offset, size).buffer, offset, size);
      m.pointer.At? && m.pointer.position + size as int <= |m.buffer.bytes|
      && m.buffer.bytes[m.pointer.position .. m.pointer.position + size as int] == data[..size]
  {
    var m := Map(Fill(b, data, offset, size).buffer, offset, size);
    var window := m.buffer.bytes[offset as int .. offset as int + size as int];
    assert forall k :: 0 <= k < size as int ==> window[k] == data[k];
  }

  /** Fills of disjoint ranges commute: each one changes only its own range. */
  lemma {:induction false} DisjointFillsCommute(b: Buffer, d1: seq<byte>, o1: uint32, n1: uint32, d2: seq<byte>, o2: uint32, n2: uint32)
    requires !b.mapped
    requires o1 as int + n1 as int <= |b.bytes| && n1 as int <= |d1|
    requires o2 as int + n2 as int <= |b.bytes| && n2 as int <= |d2|
    requires o1 as int + n1 as int <= o2 as int || o2 as int + n2 as int <= o1 as int
    ensures Fill(Fill(b, d1, o1, n1).buffer, d2, o2, n2) == Fill(Fill(b, d2, o2, n2).buffer, d1, o1, n1)
  {
    var x := Fill(Fill(b, d1, o1, n1).buffer, d2, o2, n2).buffer;
    var y := Fill(Fill(b, d2, o2, n2).buffer, d1, o1, n1).buffer;
    assert |x.bytes| == |y.bytes|;
    forall k | 0 <= k < |x.bytes| ensures x.bytes[k] == y.bytes[k] {
      if InRange(k, o1, n1) {
        assert x.bytes[k] == d1[k - o1 as int];
      } else if InRange(k, o2, n2) {
        assert y.bytes[k] == d2[k - o2 as int];
      }
    }
    assert x.bytes == y.bytes;
  }

  /** A freshly created buffer is usable: it can be mapped from any offset,
      and a fill inside its size is accepted and reads back. */
  lemma CreateThenMapAndFill(b: Buffer, size: uint32, offset: uint32, msize: uint32, data: seq<byte>, at: uint32, n: uint32)
    requires at as int + n as int <= size as int && n as int <= |data|
    ensures var c := Create(b, size, false).buffer;
      && Map(c, offset, msize).pointer == At(offset as int)
      && Fill(c, data, at, n).ok
      && Fill(c, data, at, n).buffer.bytes[at as int..at as int + n as int] == data[..n as int]
  {
    var c := Create(b, size, false).buffer;
    var f := Fill(c, data, at, n).buffer;
    assert f.bytes[at as int..at as int + n as int] == data[..n as int];
  }
}

=== FILE: sprite_render.dfy ===
/** Drawing a text sprite: the final vertices are recomputed from the local
    vertices and the tint when stale, and every texture with a non-empty
    range is submitted to the render queue as one batch of quads.

    The transform of a local position into the scene and the colour
    modulation are not modelled arithmetically: a final vertex records the
    local vertex and the tint it was computed from (`Shaded`). */
module SpriteRendering {
  import opened Collections
  import opened GlyphLayout
  import opened TextSprites

  // ---------------------------------------------------------------------
  // Recomputing the final vertices
  // ---------------------------------------------------------------------

  /** Vertex `k` is a corner of one of the quads of `indices`. */
  predicate Covers(indices: RenderIndices, k: int) {
    indices.first * 4 <= k < (indices.first + indices.count) * 4
  }

  /** Vertex `k` is a corner of a quad of some texture's range. */
  predicate Covered(infos: RenderInfos, k: int) {
    exists t :: t in infos && Covers(infos[t], k)
  }

  /** Vertex `k` is a corner of a quad of one of the ranges of `keys`. */
  predicate CoveredBy(infos: RenderInfos, keys: seq<TextureId>, k: int) {
    exists i :: 0 <= i < |keys| && keys[i] in infos && Covers(infos[keys[i]], k)
  }

  /** The final vertex computed from local vertex `local` under `tint`; the
      texture coordinates are left as they are. */
  function Lit(v: Vertex, local: LocalVertex, tint: Color): Vertex {
    v.(shade := Shaded(local, tint))
  }

  /** The range lies inside arrays of `nv` final and `nl` local vertices. */
  predicate Fits(indices: RenderIndices, nv: nat, nl: nat) {
    (indices.first + indices.count) * 4 <= nv && (indices.first + indices.count) * 4 <= nl
  }

  /** The inner loops of `UpdateVertices` for one range: walk its corners
      from `first * 4`, computing each final vertex from the local vertex at
      the same position. */
  function ShadeRange(vertices: seq<Vertex>, locals: seq<LocalVertex>, indices: RenderIndices, tint: Color): (r: seq<Vertex>)
    requires Fits(indices, |vertices|, |locals|)
    ensures |r| == |vertices|
    ensures forall k :: 0 <= k < |r| ==> r[k] == if Covers(indices, k) then Lit(vertices[k], locals[k], tint) else vertices[k]
  {
    var lo := indices.first * 4;
    var hi := (indices.first + indices.count) * 4;
    vertices[..lo] + seq(hi - lo, i requires 0 <= i < hi - lo => Lit(vertices[lo + i], locals[lo + i], tint)) + vertices[hi..]
  }

  /** Every range of `keys` is a range of `infos` inside both arrays. */
  predicate KeysFit(infos: RenderInfos, keys: seq<TextureId>, nv: nat, nl: nat) {
    forall i :: 0 <= i < |keys| ==> keys[i] in infos && Fits(infos[keys[i]], nv, nl)
  }

  /** The outer loop of `UpdateVertices`: the ranges of `keys`, in order. */
  function ShadeRanges(vertices: seq<Vertex>, locals: seq<LocalVertex>, infos: RenderInfos, keys: seq<TextureId>, tint: Color): (r: seq<Vertex>)
    requires KeysFit(infos, keys, |vertices|, |locals|)
    ensures |r| == |vertices|
    decreases |keys|
  {
    if keys == [] then vertices
    else ShadeRanges(ShadeRange(vertices, locals, infos[keys[0]], tint), locals, infos, keys[1..], tint)
  }

  /** A vertex is covered by the ranges of `keys` exactly when it is
      covered by the first one or by the rest. */
  lemma CoveredByStep(infos: RenderInfos, keys: seq<TextureId>, k: int)
    requires keys != [] && keys[0] in infos
    ensures CoveredBy(infos, keys, k) <==> Covers(infos[keys[0]], k) || CoveredBy(infos, keys[1..], k)
  {
    if CoveredBy(infos, keys[1..], k) {
      var i :| 0 <= i < |keys[1..]| && keys[1..][i] in infos && Covers(infos[keys[1..][i]], k);
      assert keys[i + 1] == keys[1..][i];
    }
    if CoveredBy(infos, keys, k) && !Covers(infos[keys[0]], k) {
      var i :| 0 <= i < |keys| && keys[i] in infos && Covers(infos[keys[i]], k);
      assert keys[1..][i - 1] == keys[i];
    }
  }

  /** After the walk over `keys`, a vertex covered by one of their ranges is
      computed from its local vertex and the tint, and any other vertex is
      left alone, whatever the order of the walk. */
  lemma {:induction false} ShadeRangesAt(vertices: seq<Vertex>, locals: seq<LocalVertex>, infos: RenderInfos, keys: seq<TextureId>, tint: Color, k: nat)
    requires KeysFit(infos, keys, |vertices|, |locals|)
    requires k < |vertices| && k < |locals|
    ensures ShadeRanges(vertices, locals, infos, keys, tint)[k]
      == if CoveredBy(infos, keys, k) then Lit(vertices[k], locals[k], tint) else vertices[k]
    decreases |keys|
  {
    if keys != [] {
      var next := ShadeRange(vertices, locals, infos[keys[0]], tint);
      assert KeysFit(infos, keys[1..], |next|, |locals|);
      ShadeRangesAt(next, locals, infos, keys[1..], tint, k);
      CoveredByStep(infos, keys, k);
    }
  }

  /** Covering by the ranges walked in ascending key order is covering by
      any range of the map. */
  lemma CoveredByAllKeys(infos: RenderInfos, k: int)
    ensures CoveredBy(infos, Ascending(infos.Keys), k) <==> Covered(infos, k)
  {
    var order := Ascending(infos.Keys);
    if Covered(infos, k) {
      var t :| t in infos && Covers(infos[t], k);
      assert t in order;
      var i :| 0 <= i < |order| && order[i] == t;
      assert Covers(infos[order[i]], k);
    }
  }

  /** The ranges of a sprite, walked in the map's iteration order. */
  lemma RangesFitKeys(s: TextSprite)
    requires RangesFit(s)
    ensures KeysFit(s.renderInfos, Ascending(s.renderInfos.Keys), |s.vertices|, |s.localVertices|)
  {
  }

  /** `UpdateVertices`: recompute the final vertex of every corner of every
      range and mark the vertices up to date. */
  function UpdateVertices(s: TextSprite): (r: TextSprite)
    requires RangesFit(s)
    ensures r.verticesUpdated && |r.vertices| == |s.vertices|
    ensures r.renderInfos == s.renderInfos && r.localVertices == s.localVertices && r.color == s.color
    ensures r.(vertices := s.vertices, verticesUpdated := s.verticesUpdated) == s
  {
    RangesFitKeys(s);
    var vertices := ShadeRanges(s.vertices, s.localVertices, s.renderInfos, Ascending(s.renderInfos.Keys), s.color);
    s.(vertices := vertices, verticesUpdated := true)
  }

  /** After `UpdateVertices` every corner of a range holds the final vertex
      computed from its local vertex and the sprite's tint, its texture
      coordinates untouched, and every vertex outside the ranges is left as
      it was. */
  lemma UpdateVerticesShades(s: TextSprite, k: nat)
    requires RangesFit(s) && k < |s.vertices|
    ensures Covered(s.renderInfos, k) ==>
      (k < |s.localVertices| && UpdateVertices(s).vertices[k] == Vertex(Shaded(s.localVertices[k], s.color), s.vertices[k].uv))
    ensures !Covered(s.renderInfos, k) ==> UpdateVertices(s).vertices[k] == s.vertices[k]
  {
    var order := Ascending(s.renderInfos.Keys);
    RangesFitKeys(s);
    CoveredByAllKeys(s.renderInfos, k);
    if Covered(s.renderInfos, k) {
      var t :| t in s.renderInfos && Covers(s.renderInfos[t], k);
      assert k < |s.localVertices|;
      ShadeRangesAt(s.vertices, s.localVertices, s.renderInfos, order, s.color, k);
    } else if k < |s.localVertices| {
      ShadeRangesAt(s.vertices, s.localVertices, s.renderInfos, order, s.color, k);
    } else {
      NotCoveredUnchanged(s.vertices, s.localVertices, s.renderInfos, order, s.color, k);
    }
  }

  /** A vertex past the local vertices is covered by no range and is left
      alone by the walk. */
  lemma {:induction false} NotCoveredUnchanged(vertices: seq<Vertex>, locals: seq<LocalVertex>, infos: RenderInfos, keys: seq<TextureId>, tint: Color, k: nat)
    requires KeysFit(infos, keys, |vertices|, |locals|)
    requires |locals| <= k < |vertices|
    ensures ShadeRanges(vertices, locals, infos, keys, tint)[k] == vertices[k]
    decreases |keys|
  {
    if keys != [] {
      var next := ShadeRange(vertices, locals, infos[keys[0]], tint);
      assert KeysFit(infos, keys[1..], |next|, |locals|);
      NotCoveredUnchanged(next, locals, infos, keys[1..], tint, k);
    }
  }

  // ---------------------------------------------------------------------
  // Submitting the batches
  // ---------------------------------------------------------------------

  /** One `AddSprites` call: `count` quads of the texture `texture`, read
      from the final vertices starting at vertex `offset`. */
  datatype Batch = Batch(texture: TextureId, offset: nat, count: nat, sprites: seq<Vertex>)

  /** A draw: the sprite after it (its vertices possibly recomputed) and the
      batches submitted to the render queue, in order. */
  datatype Rendered = Rendered(sprite: TextSprite, batches: seq<Batch>)

  /** `b` submits the whole non-empty range of its texture in `s`. */
  predicate SubmitsRange(s: TextSprite, b: Batch) {
    && b.texture in s.renderInfos
    && b.offset == s.renderInfos[b.texture].first * 4
    && b.count == s.renderInfos[b.texture].count
    && b.count > 0
    && b.offset + 4 * b.count <= |s.vertices|
    && b.sprites == s.vertices[b.offset .. b.offset + 4 * b.count]
  }

  /** The loop of `AddToRenderQueue` over the ranges of `keys`, skipping the
      empty ones. */
  function BatchesOf(s: TextSprite, keys: seq<TextureId>): (r: seq<Batch>)
    requires RangesFit(s)
    requires forall i :: 0 <= i < |keys| ==> keys[i] in s.renderInfos
    ensures forall i :: 0 <= i < |r| ==> SubmitsRange(s, r[i]) && r[i].texture in keys
    decreases |keys|
  {
    if keys == [] then []
    else
      var t := keys[0];
      var indices := s.renderInfos[t];
      var rest := BatchesOf(s, keys[1..]);
      if indices.count == 0 then rest
      else [Batch(t, indices.first * 4, indices.count, s.vertices[indices.first * 4 .. (indices.first + indices.count) * 4])] + rest
  }

  /** Some batch of `batches` draws texture `t`. */
  predicate Submitted(batches: seq<Batch>, t: TextureId) {
    exists i :: 0 <= i < |batches| && batches[i].texture == t
  }

  /** Every non-empty range of `keys` is submitted. */
  lemma {:induction false} BatchesOfComplete(s: TextSprite, keys: seq<TextureId>, t: TextureId)
    requires RangesFit(s)
    requires forall i :: 0 <= i < |keys| ==> keys[i] in s.renderInfos
    requires t in keys && s.renderInfos[t].count > 0
    ensures Submitted(BatchesOf(s, keys), t)
    decreases |keys|
  {
    var r := BatchesOf(s, keys);
    if keys[0] == t {
      assert r[0].texture == t;
    } else {
      assert t in keys[1..];
      BatchesOfComplete(s, keys[1..], t);
      var rest := BatchesOf(s, keys[1..]);
      var i :| 0 <= i < |rest| && rest[i].texture == t;
      if s.renderInfos[keys[0]].count == 0 {
        assert r[i] == rest[i];
      } else {
        assert r[i + 1] == rest[i];
      }
    }
  }

  /** Walking the keys in increasing order submits the batches in
      increasing texture order. */
  lemma {:induction false} BatchesOfOrdered(s: TextSprite, keys: seq<TextureId>)
    requires RangesFit(s)
    requires forall i :: 0 <= i < |keys| ==> keys[i] in s.renderInfos
    requires StrictlyIncreasing(keys)
    ensures forall i, j :: 0 <= i < j < |BatchesOf(s, keys)| ==> BatchesOf(s, keys)[i].texture < BatchesOf(s, keys)[j].texture
    decreases |keys|
  {
    if keys != [] {
      var rest := BatchesOf(s, keys[1..]);
      BatchesOfOrdered(s, keys[1..]);
      forall i | 0 <= i < |rest| ensures keys[0] < rest[i].texture {
        var k :| 0 <= k < |keys[1..]| && keys[1..][k] == rest[i].texture;
        assert keys[k + 1] == rest[i].texture;
      }
    }
  }

  /** `AddToRenderQueue`: bring the final vertices up to date if they are
      stale, then submit one batch per non-empty range. */
  function AddToRenderQueue(s: TextSprite): (r: Rendered)
    requires RangesFit(s)
    ensures r.sprite.verticesUpdated && RangesFit(r.sprite)
    ensures r.sprite.(vertices := s.vertices, verticesUpdated := s.verticesUpdated) == s
    ensures s.verticesUpdated ==> r.sprite == s
    ensures !s.verticesUpdated ==> r.sprite == UpdateVertices(s)
    ensures forall i :: 0 <= i < |r.batches| ==> SubmitsRange(r.sprite, r.batches[i])
  {
    var u := if s.verticesUpdated then s else UpdateVertices(s);
    Rendered(u, BatchesOf(u, Ascending(u.renderInfos.Keys)))
  }

  /** Exactly the non-empty ranges are submitted, once each, in increasing
      texture order. */
  lemma AddToRenderQueueBatches(s: TextSprite)
    requires RangesFit(s)
    ensures forall t :: Submitted(AddToRenderQueue(s).batches, t) <==> t in s.renderInfos && s.renderInfos[t].count > 0
    ensures var r := AddToRenderQueue(s);
      forall i, j :: 0 <= i < j < |r.batches| ==> r.batches[i].texture < r.batches[j].texture
  {
    var r := AddToRenderQueue(s);
    var u := r.sprite;
    var order := Ascending(u.renderInfos.Keys);
    assert u.renderInfos == s.renderInfos;
    BatchesOfOrdered(u, order);
    forall t ensures Submitted(r.batches, t) <==> t in s.renderInfos && s.renderInfos[t].count > 0 {
      if t in s.renderInfos && s.renderInfos[t].count > 0 {
        BatchesOfComplete(u, order, t);
      }
    }
  }

  /** Drawing twice in a row submits the same batches: the first draw
      brought the vertices up to date. */
  lemma RenderIsIdempotent(s: TextSprite)
    requires RangesFit(s)
    ensures AddToRenderQueue(AddToRenderQueue(s).sprite) == AddToRenderQueue(s)
  {
  }

  /** A cleared sprite draws nothing. */
  lemma ClearedSpriteDrawsNothing(s: TextSprite)
    ensures RangesFit(Clear(s).sprite) && AddToRenderQueue(Clear(s).sprite).batches == []
  {
  }

  /** Corner `k` of batch `b` is vertex `b.offset + k`, a covered one. */
  lemma BatchVertex(u: TextSprite, b: Batch, k: nat)
    requires SubmitsRange(u, b) && k < |b.sprites|
    ensures b.offset + k < |u.vertices| && b.sprites[k] == u.vertices[b.offset + k]
    ensures Covered(u.renderInfos, b.offset + k)
  {
    assert Covers(u.renderInfos[b.texture], b.offset + k);
  }

  /** A vertex of a batch submitted from the recomputed vertices carries
      the sprite's tint. */
  lemma TintedVertex(s: TextSprite, b: Batch, k: nat)
    requires RangesFit(s) && SubmitsRange(UpdateVertices(s), b) && k < |b.sprites|
    ensures b.sprites[k].shade.Shaded? && b.sprites[k].shade.tint == s.color
  {
    BatchVertex(UpdateVertices(s), b, k);
    UpdateVerticesShades(s, b.offset + k);
  }

  /** Drawing a sprite whose vertices are stale submits only vertices
      computed under the sprite's tint. */
  lemma DrawnVerticesTinted(s: TextSprite)
    requires RangesFit(s) && !s.verticesUpdated
    ensures var r := AddToRenderQueue(s);
      forall i, k :: 0 <= i < |r.batches| && 0 <= k < |r.batches[i].sprites| ==>
        r.batches[i].sprites[k].shade.Shaded? && r.batches[i].sprites[k].shade.tint == s.color
  {
    var r := AddToRenderQueue(s);
    forall i, k | 0 <= i < |r.batches| && 0 <= k < |r.batches[i].sprites|
      ensures r.batches[i].sprites[k].shade.Shaded? && r.batches[i].sprites[k].shade.tint == s.color
    {
      TintedVertex(s, r.batches[i], k);
    }
  }

  /** After `SetColor` every submitted vertex carries the new tint. */
  lemma SetColorRetints(s: TextSprite, color: Color)
    requires RangesFit(s)
    ensures RangesFit(SetColor(s, color))
    ensures var r := AddToRenderQueue(SetColor(s, color));
      forall i, k :: 0 <= i < |r.batches| && 0 <= k < |r.batches[i].sprites| ==>
        r.batches[i].sprites[k].shade.Shaded? && r.batches[i].sprites[k].shade.tint == color
  {
    DrawnVerticesTinted(SetColor(s, color));
  }

  /** `InvalidateNode` forces the next draw to rebuild the final vertices,
      even when the old ones were marked up to date: a covered vertex is
      drawn from its local vertex and the sprite's colour, and every
      submitted vertex carries that colour. */
  lemma InvalidateNodeRecomputes(s: TextSprite, k: nat)
    requires RangesFit(s) && k < |s.vertices| && Covered(s.renderInfos, k)
    ensures RangesFit(InvalidateNode(s))
    ensures k < |s.localVertices|
    ensures AddToRenderQueue(InvalidateNode(s)).sprite.vertices[k] == Vertex(Shaded(s.localVertices[k], s.color), s.vertices[k].uv)
    ensures var r := AddToRenderQueue(InvalidateNode(s));
      forall i, j :: 0 <= i < |r.batches| && 0 <= j < |r.batches[i].sprites| ==>
        r.batches[i].sprites[j].shade.Shaded? && r.batches[i].sprites[j].shade.tint == s.color
  {
    var i := InvalidateNode(s);
    UpdateVerticesShades(i, k);
    DrawnVerticesTinted(i);
  }

  // ---------------------------------------------------------------------
  // What a shown text draws
  // ---------------------------------------------------------------------

  /** The vertex drawn for corner `j` of glyph `g` under `tint`. */
  function Drawn(g: Glyph, j: nat, tint: Color): Vertex
    requires j < 4
  {
    Vertex(Shaded(LocalOf(g, j), tint), UVOf(g, j))
  }

  /** Corner `j` of glyph `i`'s quad is a covered vertex of its texture's
      range, `4 * rank + j` vertices into it, and holds the glyph's local
      vertex and texture coordinates. */
  lemma GlyphCorner(s: TextSprite, glyphs: seq<Glyph>, i: nat, j: nat) returns (k: nat)
    requires Shows(s, glyphs) && i < |glyphs| && j < 4
    ensures glyphs[i].texture in s.renderInfos && Covers(s.renderInfos[glyphs[i].texture], k)
    ensures k - s.renderInfos[glyphs[i].texture].first * 4 == 4 * Rank(glyphs, i) + j
    ensures k < |s.vertices| && k < |s.localVertices|
    ensures Vertex(Shaded(s.localVertices[k], s.color), s.vertices[k].uv) == Drawn(glyphs[i], j, s.color)
  {
    assert QuadInRange(PlacedOf(s), glyphs, i);
    assert CornerHolds(PlacedOf(s), glyphs, i, j);
    k := QuadOf(s.renderInfos, glyphs, i) * 4 + j;
  }

  /** The draw `r` submits vertex `v` at position `pos` of the batch of
      texture `t`. */
  predicate DrawsAt(r: Rendered, t: TextureId, pos: nat, v: Vertex) {
    exists n :: 0 <= n < |r.batches| && r.batches[n].texture == t && pos < |r.batches[n].sprites| && r.batches[n].sprites[pos] == v
  }

  /** A covered vertex, once recomputed. */
  lemma UpdatedCorner(s: TextSprite, t: TextureId, k: nat)
    requires RangesFit(s) && t in s.renderInfos && Covers(s.renderInfos[t], k)
    ensures k < |s.vertices| && k < |s.localVertices|
    ensures UpdateVertices(s).vertices[k] == Vertex(Shaded(s.localVertices[k], s.color), s.vertices[k].uv)
  {
    UpdateVerticesShades(s, k);
  }

  /** A covered vertex of a sprite whose vertices are stale is drawn, as
      computed from its local vertex and the tint, in the batch of its
      range's texture, at its distance from the start of the range. */
  lemma CoveredVertexDrawn(s: TextSprite, t: TextureId, k: nat, pos: nat, v: Vertex)
    requires RangesFit(s) && !s.verticesUpdated
    requires t in s.renderInfos && Covers(s.renderInfos[t], k)
    requires k < |s.vertices| && k < |s.localVertices|
    requires pos == k - s.renderInfos[t].first * 4
    requires v == Vertex(Shaded(s.localVertices[k], s.color), s.vertices[k].uv)
    ensures DrawsAt(AddToRenderQueue(s), t, pos, v)
  {
    var u := UpdateVertices(s);
    UpdatedCorner(s, t, k);
    var keys := Ascending(u.renderInfos.Keys);
    var batches := BatchesOf(u, keys);
    assert AddToRenderQueue(s).batches == batches;
    var n := BatchesHold(u, keys, t, k, pos);
    assert 0 <= n < |batches| && batches[n].texture == t && pos < |batches[n].sprites| && batches[n].sprites[pos] == v;
  }

  /** A covered vertex of a range walked by the loop, seen from the batch
      of its texture. */
  lemma BatchesHold(u: TextSprite, keys: seq<TextureId>, t: TextureId, k: nat, pos: nat) returns (n: nat)
    requires RangesFit(u) && forall i :: 0 <= i < |keys| ==> keys[i] in u.renderInfos
    requires t in keys && t in u.renderInfos && Covers(u.renderInfos[t], k)
    requires pos == k - u.renderInfos[t].first * 4
    ensures var batches := BatchesOf(u, keys);
      n < |batches| && batches[n].texture == t && pos < |batches[n].sprites| && batches[n].sprites[pos] == u.vertices[k]
  {
    var batches := BatchesOf(u, keys);
    BatchesOfComplete(u, keys, t);
    n :| 0 <= n < |batches| && batches[n].texture == t;
    assert SubmitsRange(u, batches[n]);
  }

  /** Corner `j` of glyph `i` of a shown text is drawn, under the sprite's
      tint, at position `4 * rank + j` of its texture's batch, where `rank`
      counts the earlier glyphs on that texture. */
  lemma GlyphDrawn(s: TextSprite, glyphs: seq<Glyph>, i: nat, j: nat)
    requires Shows(s, glyphs) && !s.verticesUpdated && i < |glyphs| && j < 4
    ensures DrawsAt(AddToRenderQueue(s), glyphs[i].texture, 4 * Rank(glyphs, i) + j, Drawn(glyphs[i], j, s.color))
  {
    var k := GlyphCorner(s, glyphs, i, j);
    CoveredVertexDrawn(s, glyphs[i].texture, k, 4 * Rank(glyphs, i) + j, Drawn(glyphs[i], j, s.color));
  }

  /** A shown text submits one batch per texture it uses, and no other. */
  lemma ShownBatchesAreTextures(s: TextSprite, glyphs: seq<Glyph>)
    requires Shows(s, glyphs)
    ensures forall t :: Submitted(AddToRenderQueue(s).batches, t) <==> t in Textures(glyphs)
  {
    AddToRenderQueueBatches(s);
    forall t | t in Textures(glyphs) ensures s.renderInfos[t].count > 0 {
      TexturesAreUsed(glyphs, t);
    }
  }

  /** After `SetText`, drawing shows every corner of every glyph of the text
      with the sprite's tint. */
  lemma SetTextDrawsEveryGlyph(s: TextSprite, d: Drawer, i: nat, j: nat)
    requires i < |d.glyphs| && j < 4
    ensures RangesFit(SetText(s, d).sprite)
    ensures DrawsAt(AddToRenderQueue(SetText(s, d).sprite), d.glyphs[i].texture, 4 * Rank(d.glyphs, i) + j, Drawn(d.glyphs[i], j, s.color))
  {
    GlyphDrawn(SetText(s, d).sprite, d.glyphs, i, j);
  }

  /** A text whose first glyph is on texture 5 and whose second is on
      texture 2 uses each texture once, and its second glyph is the first
      on texture 2. */
  lemma TwoGlyphCounts(glyphs: seq<Glyph>)
    requires |glyphs| == 2 && glyphs[0].texture == 5 && glyphs[1].texture == 2
    ensures Textures(glyphs) == {5, 2}
    ensures GlyphsOn(glyphs, 2) == 1 && GlyphsOn(glyphs, 5) == 1
    ensures Rank(glyphs, 1) == 0
  {
    var tail := glyphs[1..];
    assert tail[1..] == [] && tail[0].texture == 2;
    assert Textures(tail) == {2} && GlyphsOn(tail, 2) == 1 && GlyphsOn(tail, 5) == 0;
    var head := glyphs[..1];
    assert head[1..] == [] && head[0].texture == 5;
    assert GlyphsOn(head, 2) == 0;
  }

  lemma AscendingTwoFive()
    ensures Ascending({5, 2}) == [2, 5]
  {
    AscendingUnique({5, 2}, [2, 5]);
  }

  /** Texture 2's range in a sprite showing such a text is quad 0 alone. */
  lemma ShowsTwoGlyphs(s: TextSprite, glyphs: seq<Glyph>)
    requires Shows(s, glyphs)
    requires |glyphs| == 2 && glyphs[0].texture == 5 && glyphs[1].texture == 2
    ensures 2 in s.renderInfos && s.renderInfos[2] == RenderIndices(0, 1)
  {
    TwoGlyphCounts(glyphs);
    AscendingTwoFive();
    assert Chained(s.renderInfos, [2, 5], 2);
  }

  /** ... and the second glyph's quad is quad 0. */
  lemma SecondGlyphFirst(s: TextSprite, glyphs: seq<Glyph>)
    requires Shows(s, glyphs)
    requires |glyphs| == 2 && glyphs[0].texture == 5 && glyphs[1].texture == 2
    ensures |s.vertices| > 0 && s.vertices[0].uv == UVOf(glyphs[1], 0)
  {
    ShowsTwoGlyphs(s, glyphs);
    TwoGlyphCounts(glyphs);
    var k := GlyphCorner(s, glyphs, 1, 0);
    assert k == 0;
  }

  /** With the local vertices written in glyph order, a text whose first
      glyph is on a later texture than its second draws, at the head of
      texture 2's batch, the second glyph's texture coordinates with the
      first glyph's local vertex (where the corrected `SetText` draws the
      second glyph's own corner, see `SetTextDrawsEveryGlyph`). */
  lemma LocalQuadMismatchExample(s: TextSprite, d: Drawer)
    requires s.renderInfos == map[]
    requires |d.glyphs| == 2 && d.glyphs[0].texture == 5 && d.glyphs[1].texture == 2
    ensures SetTextAsWritten(s, d).TextSet? && RangesFit(SetTextAsWritten(s, d).sprite)
    ensures DrawsAt(AddToRenderQueue(SetTextAsWritten(s, d).sprite), 2, 0,
                    Vertex(Shaded(LocalOf(d.glyphs[0], 0), s.color), UVOf(d.glyphs[1], 0)))
  {
    var fixed := SetText(s, d).sprite;
    SetTextAsWrittenFromEmpty(s, d);
    ShowsTwoGlyphs(fixed, d.glyphs);
    SecondGlyphFirst(fixed, d.glyphs);
    var w := SetTextAsWritten(s, d).sprite;
    assert w.localVertices[0] == LocalOf(d.glyphs[0], 0);
    assert RangesFit(w) by {
      assert RangesFit(fixed);
    }
    assert Covers(w.renderInfos[2], 0);
    CoveredVertexDrawn(w, 2, 0, 0, Vertex(Shaded(LocalOf(d.glyphs[0], 0), s.color), UVOf(d.glyphs[1], 0)));
  }
}

=== FILE: text_sprite.dfy ===
/** The text sprite of the graphics module: the atlases it listens to, the
    per-texture quad ranges of its text, its local and final vertex arrays,
    its tint and its stale flags.

    Atlases and textures are identified by address; the atlas set and the
    render-info map are ordered containers and are walked in ascending key
    order. A call to `AddListener` / `RemoveListener` on an atlas is
    returned as a `ListenerCall` for the caller to apply. */
module TextSprites {
  import opened Collections
  import opened GlyphLayout

  type AtlasId = nat

  /** What the text drawer hands over: the atlas of each of its fonts, the
      laid-out glyphs and the bounds of the text. */
  datatype Drawer = Drawer(fontAtlases: seq<AtlasId>, glyphs: seq<Glyph>, bounds: Rect)

  datatype ListenerCall = AddListener(atlas: AtlasId) | RemoveListener(atlas: AtlasId)

  datatype TextSprite = TextSprite(
    atlases: set<AtlasId>,
    renderInfos: RenderInfos,
    localVertices: seq<LocalVertex>,
    vertices: seq<Vertex>,
    color: Color,
    localBounds: Rect,
    boundingVolumeUpdated: bool,
    verticesUpdated: bool)

  /** A sprite after an operation, with the listener calls it made, in order. */
  datatype Changed = Changed(sprite: TextSprite, calls: seq<ListenerCall>)

  // ---------------------------------------------------------------------
  // Listener registrations
  // ---------------------------------------------------------------------

  /** How many times the sprite is registered with each atlas, starting from
      `reg` and applying `calls` in order. */
  function Registered(reg: multiset<AtlasId>, calls: seq<ListenerCall>): multiset<AtlasId>
    decreases |calls|
  {
    if calls == [] then reg
    else
      var next := match calls[0]
        case AddListener(a) => reg + multiset{a}
        case RemoveListener(a) => reg - multiset{a};
      Registered(next, calls[1..])
  }

  /** The sprite is registered exactly once with every atlas of its set and
      with no other. */
  predicate ListensTo(reg: multiset<AtlasId>, s: TextSprite) {
    reg == multiset(s.atlases)
  }

  lemma {:induction false} RegisteredAppend(reg: multiset<AtlasId>, a: seq<ListenerCall>, b: seq<ListenerCall>)
    ensures Registered(reg, a + b) == Registered(Registered(reg, a), b)
    decreases |a|
  {
    if a == [] {
      assert a + b == b;
    } else {
      assert (a + b)[0] == a[0];
      assert (a + b)[1..] == a[1..] + b;
      var next := match a[0]
        case AddListener(x) => reg + multiset{x}
        case RemoveListener(x) => reg - multiset{x};
      RegisteredAppend(next, a[1..], b);
    }
  }

  /** One `RemoveListener` per atlas of `order`, in that order. */
  function Removals(order: seq<AtlasId>): (r: seq<ListenerCall>)
    ensures |r| == |order|
    ensures forall i :: 0 <= i < |order| ==> r[i] == RemoveListener(order[i])
    decreases |order|
  {
    if order == [] then [] else [RemoveListener(order[0])] + Removals(order[1..])
  }

  /** The atlases `Removals(order)` unregisters are those of `order`. */
  lemma RemovalsOf(order: seq<AtlasId>)
    ensures forall a :: RemoveListener(a) in Removals(order) <==> a in order
  {
    var calls := Removals(order);
    forall a | RemoveListener(a) in calls ensures a in order {
      var i :| 0 <= i < |calls| && calls[i] == RemoveListener(a);
      assert order[i] == a;
    }
    forall a | a in order ensures RemoveListener(a) in calls {
      var i :| 0 <= i < |order| && order[i] == a;
      assert calls[i] == RemoveListener(a);
    }
  }

  /** One `AddListener` per atlas of `order`, in that order. */
  function Additions(order: seq<AtlasId>): (r: seq<ListenerCall>)
    ensures |r| == |order|
    ensures forall i :: 0 <= i < |order| ==> r[i] == AddListener(order[i])
    decreases |order|
  {
    if order == [] then [] else [AddListener(order[0])] + Additions(order[1..])
  }

  lemma {:induction false} RemovalsUnregister(reg: multiset<AtlasId>, order: seq<AtlasId>)
    ensures Registered(reg, Removals(order)) == reg - multiset(order)
    decreases |order|
  {
    if order != [] {
      RemovalsUnregister(reg - multiset{order[0]}, order[1..]);
      assert order == [order[0]] + order[1..];
      assert multiset(order) == multiset{order[0]} + multiset(order[1..]);
    }
  }

  lemma {:induction false} AdditionsRegister(reg: multiset<AtlasId>, order: seq<AtlasId>)
    ensures Registered(reg, Additions(order)) == reg + multiset(order)
    decreases |order|
  {
    if order != [] {
      AdditionsRegister(reg + multiset{order[0]}, order[1..]);
      assert order == [order[0]] + order[1..];
      assert multiset(order) == multiset{order[0]} + multiset(order[1..]);
    }
  }

  /** A repetition-free enumeration of a set has the set's multiset. */
  lemma {:induction false} EnumerationMultiset(s: set<nat>, xs: seq<nat>)
    requires Distinct(xs)
    requires forall x :: x in s <==> x in xs
    ensures multiset(xs) == multiset(s)
    decreases |xs|
  {
    if xs == [] {
      assert s == {};
    } else {
      var h := xs[0];
      var t := xs[1..];
      assert xs == [h] + t;
      forall x ensures x in s - {h} <==> x in t {
        if x in xs && x != h {
          var k :| 0 <= k < |xs| && xs[k] == x;
          assert t[k - 1] == x;
        }
        if x in t {
          var k :| 0 <= k < |t| && t[k] == x;
          assert xs[k + 1] == x;
        }
      }
      EnumerationMultiset(s - {h}, t);
      assert s == {h} + (s - {h});
    }
  }

  /** Ascending enumeration of a set of atlases, as a multiset. */
  lemma AscendingMultiset(s: set<nat>)
    ensures multiset(Ascending(s)) == multiset(s)
  {
    IncreasingIsDistinct(Ascending(s));
    EnumerationMultiset(s, Ascending(s));
  }

  /** `ClearAtlases`: unregister from every atlas of the set, in ascending
      order, and empty the set. */
  function ClearAtlases(s: TextSprite): (r: Changed)
    ensures r.sprite == s.(atlases := {})
    ensures |r.calls| == |s.atlases|
    ensures forall a :: RemoveListener(a) in r.calls <==> a in s.atlases
    ensures forall c :: c in r.calls ==> c.RemoveListener?
  {
    var order := Ascending(s.atlases);
    var calls := Removals(order);
    RemovalsOf(order);
    Changed(s.(atlases := {}), calls)
  }

  /** After `ClearAtlases` a sprite that listened to its atlases is
      registered nowhere. */
  lemma ClearAtlasesUnregisters(s: TextSprite)
    ensures Registered(multiset(s.atlases), ClearAtlases(s).calls) == multiset{}
    ensures ListensTo(Registered(multiset(s.atlases), ClearAtlases(s).calls), ClearAtlases(s).sprite)
  {
    var order := Ascending(s.atlases);
    RemovalsUnregister(multiset(s.atlases), order);
    AscendingMultiset(s.atlases);
  }

  /** The atlases of a list of fonts. */
  function AtlasesOf(fonts: seq<AtlasId>): set<AtlasId> {
    set a | a in fonts
  }

  datatype Listening = Listening(atlases: set<AtlasId>, calls: seq<ListenerCall>)

  /** The registration loop of `SetText`: insert each font's atlas into the
      set and register with it when the insertion added it. */
  function ListenTo(held: set<AtlasId>, fonts: seq<AtlasId>): (r: Listening)
    ensures r.atlases == held + AtlasesOf(fonts)
    ensures forall c :: c in r.calls ==> c.AddListener? && c.atlas in fonts && c.atlas !in held
    decreases |fonts|
  {
    if fonts == [] then Listening(held, [])
    else
      var a := fonts[0];
      var rest := ListenTo(held + {a}, fonts[1..]);
      assert forall x :: x in fonts <==> x == a || x in fonts[1..];
      if a in held then
        assert held + {a} == held;
        rest
      else
        Listening(rest.atlases, [AddListener(a)] + rest.calls)
  }

  /** The registration loop registers exactly once with every atlas it
      added to the set, and with nothing else. */
  lemma {:induction false} ListenToRegisters(reg: multiset<AtlasId>, held: set<AtlasId>, fonts: seq<AtlasId>)
    ensures Registered(reg, ListenTo(held, fonts).calls) == reg + multiset(ListenTo(held, fonts).atlases - held)
    decreases |fonts|
  {
    if fonts == [] {
      assert ListenTo(held, fonts).atlases - held == {};
    } else if fonts[0] in held {
      assert held + {fonts[0]} == held;
      ListenToRegisters(reg, held, fonts[1..]);
    } else {
      var a := fonts[0];
      ListenToRegisters(reg + multiset{a}, held + {a}, fonts[1..]);
      ListenNewAtlas(reg, held, fonts);
      NewAtlasMultiset(ListenTo(held, fonts).atlases, held, a);
    }
  }

  /** One step of the registration loop for an atlas not in the set yet. */
  lemma ListenNewAtlas(reg: multiset<AtlasId>, held: set<AtlasId>, fonts: seq<AtlasId>)
    requires fonts != [] && fonts[0] !in held
    ensures ListenTo(held, fonts).atlases == ListenTo(held + {fonts[0]}, fonts[1..]).atlases
    ensures Registered(reg, ListenTo(held, fonts).calls)
      == Registered(reg + multiset{fonts[0]}, ListenTo(held + {fonts[0]}, fonts[1..]).calls)
  {
    var rest := ListenTo(held + {fonts[0]}, fonts[1..]);
    assert ListenTo(held, fonts).calls == [AddListener(fonts[0])] + rest.calls;
  }

  lemma NewAtlasMultiset(atlases: set<AtlasId>, held: set<AtlasId>, a: AtlasId)
    requires a in atlases && a !in held
    ensures multiset(atlases - held) == multiset{a} + multiset(atlases - (held + {a}))
  {
    var added := atlases - (held + {a});
    assert atlases - held == {a} + added;
    forall x ensures multiset({a} + added)[x] == (multiset{a} + multiset(added))[x] {
    }
  }

  // ---------------------------------------------------------------------
  // Setting the text
  // ---------------------------------------------------------------------

  /** `std::vector::resize`: keep the first `n` elements, padding with
      `filler` (the value a new element gets). */
  function Resize<T>(xs: seq<T>, n: nat, filler: T): (r: seq<T>)
    ensures |r| == n
    ensures forall k :: 0 <= k < n && k < |xs| ==> r[k] == xs[k]
  {
    if n <= |xs| then xs[..n] else xs + seq(n - |xs|, _ => filler)
  }

  /** The value of a new element of the final and local vertex arrays. */
  const BlankVertex := Vertex(Unshaded, NoTexCoord)
  const BlankLocal := LocalVertex(Point(0, 0), Color(0, 0, 0, 0))

  /** The sprite's arrays, seen as a placement. */
  function PlacedOf(s: TextSprite): Placed {
    Placed(s.renderInfos, s.vertices, s.localVertices)
  }

  /** Every range lies inside both vertex arrays. */
  predicate RangesFit(s: TextSprite) {
    forall t :: t in s.renderInfos ==>
      && (s.renderInfos[t].first + s.renderInfos[t].count) * 4 <= |s.vertices|
      && (s.renderInfos[t].first + s.renderInfos[t].count) * 4 <= |s.localVertices|
  }

  /** `s` draws `glyphs`: every glyph's quad lies in its texture's range and
      holds its local vertices and texture coordinates, the ranges hold
      exactly the used textures, each as long as its glyph count, and tile
      the quads of the text, inside both vertex arrays. */
  predicate Shows(s: TextSprite, glyphs: seq<Glyph>) {
    && Laid(PlacedOf(s), glyphs)
    && Tiled(s.renderInfos, |glyphs|)
    && s.renderInfos.Keys == Textures(glyphs)
    && (forall t :: t in s.renderInfos ==> s.renderInfos[t].count == GlyphsOn(glyphs, t))
    && RangesFit(s)
  }

  /** Ranges that tile the quads of a laid-out text fit its arrays. */
  lemma TiledFits(s: TextSprite, glyphs: seq<Glyph>)
    requires Laid(PlacedOf(s), glyphs) && Tiled(s.renderInfos, |glyphs|)
    ensures RangesFit(s)
  {
    forall t | t in s.renderInfos
      ensures (s.renderInfos[t].first + s.renderInfos[t].count) * 4 <= 4 * |glyphs|
    {
      TiledBelow(s.renderInfos, |glyphs|, t);
    }
  }

  /** A fresh layout of `glyphs` into arrays of the right size shows them. */
  lemma FreshLayoutShows(s: TextSprite, vertices: seq<Vertex>, locals: seq<LocalVertex>, glyphs: seq<Glyph>)
    requires |vertices| == 4 * |glyphs| && |locals| == |vertices|
    requires var p := FreshLayout(vertices, locals, glyphs);
      s.renderInfos == p.infos && s.vertices == p.vertices && s.localVertices == p.locals
    ensures Shows(s, glyphs)
  {
    FreshLayoutTiles(vertices, locals, glyphs);
    assert PlacedOf(s) == FreshLayout(vertices, locals, glyphs);
    TiledFits(s, glyphs);
  }

  /** The listener calls of `SetText`: every previous atlas is dropped,
      then each atlas of the fonts is registered with. */
  function SetTextCalls(s: TextSprite, d: Drawer): seq<ListenerCall> {
    ClearAtlases(s).calls + ListenTo({}, d.fontAtlases).calls
  }

  /** The arrays of a text: a fresh layout of its glyphs into the resized
      arrays of `s`, with the corrected placement (local vertices in texture
      slots). */
  function TextLayout(s: TextSprite, d: Drawer): (p: Placed)
    ensures |p.vertices| == 4 * |d.glyphs| && |p.locals| == 4 * |d.glyphs|
    ensures Shows(TextSprite(s.atlases, p.infos, p.locals, p.vertices, s.color, s.localBounds, false, false), d.glyphs)
  {
    var n := 4 * |d.glyphs|;
    var vertices := Resize(s.vertices, n, BlankVertex);
    var locals := Resize(s.localVertices, n, BlankLocal);
    var p := FreshLayout(vertices, locals, d.glyphs);
    FreshLayoutShows(TextSprite(s.atlases, p.infos, p.locals, p.vertices, s.color, s.localBounds, false, false), vertices, locals, d.glyphs);
    p
  }

  /** `SetText`, corrected: drop the ranges of the previous text before
      counting (see `SetTextAsWritten`) and write each glyph's local vertices
      into the same quad as its texture coordinates. */
  function SetText(s: TextSprite, d: Drawer): (r: Changed)
    ensures r.sprite.atlases == AtlasesOf(d.fontAtlases)
    ensures |r.sprite.vertices| == 4 * |d.glyphs| && |r.sprite.localVertices| == 4 * |d.glyphs|
    ensures Shows(r.sprite, d.glyphs)
    ensures r.sprite.color == s.color && r.sprite.localBounds == d.bounds
    ensures !r.sprite.boundingVolumeUpdated && !r.sprite.verticesUpdated
  {
    var p := TextLayout(s, d);
    var atlases := ListenTo({}, d.fontAtlases).atlases;
    ListenFromNothing(d.fontAtlases);
    ShowsFrame(TextSprite(s.atlases, p.infos, p.locals, p.vertices, s.color, s.localBounds, false, false), atlases, d.bounds, d.glyphs);
    Changed(TextSprite(atlases, p.infos, p.locals, p.vertices, s.color, d.bounds, false, false), SetTextCalls(s, d))
  }

  lemma ListenFromNothing(fonts: seq<AtlasId>)
    ensures ListenTo({}, fonts).atlases == AtlasesOf(fonts)
  {
    assert {} + AtlasesOf(fonts) == AtlasesOf(fonts);
  }

  /** Whether a sprite shows a text does not depend on its atlases or bounds. */
  lemma ShowsFrame(s: TextSprite, atlases: set<AtlasId>, bounds: Rect, glyphs: seq<Glyph>)
    requires Shows(s, glyphs)
    ensures Shows(s.(atlases := atlases, localBounds := bounds), glyphs)
  {
    assert PlacedOf(s.(atlases := atlases, localBounds := bounds)) == PlacedOf(s);
  }

  /** `SetText` leaves the sprite registered exactly once with each atlas
      of its fonts. */
  lemma SetTextListens(s: TextSprite, d: Drawer)
    ensures ListensTo(Registered(multiset(s.atlases), SetText(s, d).calls), SetText(s, d).sprite)
  {
    var cleared := ClearAtlases(s);
    var listening := ListenTo({}, d.fontAtlases);
    RegisteredAppend(multiset(s.atlases), cleared.calls, listening.calls);
    ClearAtlasesUnregisters(s);
    ListenToRegisters(multiset{}, {}, d.fontAtlases);
    assert listening.atlases - {} == AtlasesOf(d.fontAtlases);
    assert SetText(s, d).calls == SetTextCalls(s, d);
  }

  /** `SetText` unregisters from every previous atlas before it registers
      with any new one. */
  lemma SetTextUnregistersFirst(s: TextSprite, d: Drawer)
    ensures RemovalsFirst(SetText(s, d).calls)
  {
    var calls := SetTextCalls(s, d);
    CallsSplit(ClearAtlases(s).calls, ListenTo({}, d.fontAtlases).calls);
    assert SetText(s, d).calls == calls;
  }

  /** No removal follows an addition. */
  predicate RemovalsFirst(calls: seq<ListenerCall>) {
    forall i, j :: 0 <= i < j < |calls| && calls[j].RemoveListener? ==> calls[i].RemoveListener?
  }

  /** Removals followed by additions: every removal comes first. */
  lemma CallsSplit(removals: seq<ListenerCall>, additions: seq<ListenerCall>)
    requires forall c :: c in removals ==> c.RemoveListener?
    requires forall c :: c in additions ==> c.AddListener?
    ensures RemovalsFirst(removals + additions)
  {
    var calls := removals + additions;
    forall k | 0 <= k < |calls| ensures calls[k].RemoveListener? <==> k < |removals| {
      if k < |removals| {
        assert calls[k] in removals;
      } else {
        assert calls[k] in additions;
      }
    }
  }

  /** The local vertices of glyph `i` at vertices `4i .. 4i + 3`: the glyph
      order. */
  function GlyphOrderLocals(glyphs: seq<Glyph>): (r: seq<LocalVertex>)
    ensures |r| == 4 * |glyphs|
    ensures forall i, j :: 0 <= i < |glyphs| && 0 <= j < 4 ==> r[4 * i + j] == LocalOf(glyphs[i], j)
  {
    seq(4 * |glyphs|, k requires 0 <= k < 4 * |glyphs| => LocalOf(glyphs[k / 4], k % 4))
  }

  datatype TextSet = TextSet(sprite: TextSprite, calls: seq<ListenerCall>) | WritesOutOfBounds

  /** `SetText` as the source writes it: the counting loop adds to the ranges
      left by the previous text, and the local vertices go to the glyph's
      position in the text while its texture coordinates go to its quad in
      its texture's range. When the ranges reach past the resized vertex
      array the placement loop writes out of bounds. */
  function SetTextAsWritten(s: TextSprite, d: Drawer): (r: TextSet)
    ensures r.TextSet? ==> |r.sprite.vertices| == 4 * |d.glyphs| && r.sprite.localVertices == GlyphOrderLocals(d.glyphs)
    ensures r.TextSet? <==> Room(Assigned(s.renderInfos, d.glyphs), d.glyphs, 4 * |d.glyphs|)
    ensures r.TextSet? ==> r.sprite.atlases == AtlasesOf(d.fontAtlases)
    ensures r.TextSet? ==> r.sprite.color == s.color && r.sprite.localBounds == d.bounds
    ensures r.TextSet? ==> !r.sprite.boundingVolumeUpdated && !r.sprite.verticesUpdated
    ensures r.TextSet? ==> r.sprite.renderInfos.Keys == s.renderInfos.Keys + Textures(d.glyphs)
    ensures r.TextSet? ==> forall t :: t in r.sprite.renderInfos ==>
      r.sprite.renderInfos[t] == RenderIndices(Assigned(s.renderInfos, d.glyphs)[t].first, GlyphsOn(d.glyphs, t))
  {
    var cleared := ClearAtlases(s);
    var listening := ListenTo({}, d.fontAtlases);
    var n := 4 * |d.glyphs|;
    var vertices := Resize(s.vertices, n, BlankVertex);
    var locals := Resize(s.localVertices, n, BlankLocal);
    var a := Assigned(s.renderInfos, d.glyphs);
    if !Room(a, d.glyphs, n) then WritesOutOfBounds
    else
      var p := PlaceGlyphs(a, vertices, locals, d.glyphs);
      ListenFromNothing(d.fontAtlases);
      PlacedIsWindows(a, vertices, locals, d.glyphs);
      TextSet(TextSprite(listening.atlases, p.infos, GlyphOrderLocals(d.glyphs), p.vertices, s.color, d.bounds, false, false),
              cleared.calls + listening.calls)
  }

  /** From a sprite without ranges, the text is placed as by the corrected
      `SetText`; only the local vertices differ. */
  lemma SetTextAsWrittenFromEmpty(s: TextSprite, d: Drawer)
    requires s.renderInfos == map[]
    ensures SetTextAsWritten(s, d).TextSet?
    ensures SetTextAsWritten(s, d).sprite == SetText(s, d).sprite.(localVertices := GlyphOrderLocals(d.glyphs))
    ensures SetTextAsWritten(s, d).calls == SetText(s, d).calls
  {
    var n := 4 * |d.glyphs|;
    var vertices := Resize(s.vertices, n, BlankVertex);
    var locals := Resize(s.localVertices, n, BlankLocal);
    FreshRoom(d.glyphs);
    ListenFromNothing(d.fontAtlases);
    assert TextLayout(s, d) == PlaceGlyphs(Assigned(map[], d.glyphs), vertices, locals, d.glyphs);
  }

  /** The source's `SetText`, when it completes, leaves the sprite
      registered exactly once with each atlas of its fonts, as the
      corrected one does. */
  lemma SetTextAsWrittenListens(s: TextSprite, d: Drawer)
    ensures var r := SetTextAsWritten(s, d);
      r.TextSet? ==> ListensTo(Registered(multiset(s.atlases), r.calls), r.sprite)
  {
    var r := SetTextAsWritten(s, d);
    if r.TextSet? {
      var cleared := ClearAtlases(s);
      var listening := ListenTo({}, d.fontAtlases);
      RegisteredAppend(multiset(s.atlases), cleared.calls, listening.calls);
      ClearAtlasesUnregisters(s);
      ListenToRegisters(multiset{}, {}, d.fontAtlases);
      assert listening.atlases - {} == AtlasesOf(d.fontAtlases);
      assert r.calls == SetTextCalls(s, d);
    }
  }

  /** A one-glyph text uses its glyph's texture once. */
  lemma SingleGlyph(glyphs: seq<Glyph>, t: TextureId)
    requires |glyphs| == 1
    ensures Textures(glyphs) == {glyphs[0].texture}
    ensures GlyphsOn(glyphs, t) == if t == glyphs[0].texture then 1 else 0
  {
    assert glyphs[1..] == [];
  }

  /** The only ranges that show a one-glyph text. */
  lemma ShowsOneGlyph(s: TextSprite, glyphs: seq<Glyph>)
    requires Shows(s, glyphs) && |glyphs| == 1
    ensures s.renderInfos == map[glyphs[0].texture := RenderIndices(0, 1)]
  {
    var t := glyphs[0].texture;
    var infos := s.renderInfos;
    SingleGlyph(glyphs, t);
    AscendingUnique({t}, [t]);
    assert Chained(infos, [t], 1);
  }

  /** The ranges a one-glyph text on texture `t` leaves behind. */
  lemma OneGlyphRanges(s: TextSprite, d: Drawer, t: TextureId)
    requires s.renderInfos == map[] && |d.glyphs| == 1 && d.glyphs[0].texture == t
    ensures SetTextAsWritten(s, d).TextSet?
    ensures SetTextAsWritten(s, d).sprite.renderInfos == map[t := RenderIndices(0, 1)]
  {
    SetTextAsWrittenFromEmpty(s, d);
    ShowsOneGlyph(SetText(s, d).sprite, d.glyphs);
  }

  /** Counting a glyph on texture 2 on top of the range left by a glyph on
      texture 1. */
  lemma StaleCount(infos: RenderInfos, g: seq<Glyph>)
    requires infos == map[1 := RenderIndices(0, 1)] && |g| == 1 && g[0].texture == 2
    ensures CountGlyphs(infos, g) == map[1 := RenderIndices(0, 1), 2 := RenderIndices(0, 1)]
  {
    assert g[1..] == [];
  }

  /** ... then the ranges are walked in the order 1, 2 ... */
  lemma StaleKeys(infos: RenderInfos, g: seq<Glyph>)
    requires infos == map[1 := RenderIndices(0, 1)] && |g| == 1 && g[0].texture == 2
    ensures Ascending(CountGlyphs(infos, g).Keys) == [1, 2]
  {
    SingleGlyph(g, 2);
    AscendingOneTwo();
    assert CountGlyphs(infos, g).Keys == {1, 2};
  }

  lemma StaleOrder(infos: RenderInfos, g: seq<Glyph>)
    requires infos == map[1 := RenderIndices(0, 1)] && |g| == 1 && g[0].texture == 2
    ensures Distinct([1, 2])
    ensures Assigned(infos, g) == AssignRanges(CountGlyphs(infos, g), [1, 2], 0)
  {
    StaleKeys(infos, g);
  }

  /** ... which puts texture 2's range at quad 1, past a one-quad array. */
  lemma StaleAssignment(infos: RenderInfos, g: seq<Glyph>)
    requires infos == map[1 := RenderIndices(0, 1)] && |g| == 1 && g[0].texture == 2
    ensures !Room(Assigned(infos, g), g, 4 * |g|)
  {
    StaleOrder(infos, g);
    StaleCount(infos, g);
    var a := Assigned(infos, g);
    assert a[2] == RenderIndices(1, 0);
    SingleGlyph(g, 2);
    assert (Cursor(a, 2) + GlyphsOn(g, 2)) * 4 > 4 * |g|;
  }

  lemma AscendingOneTwo()
    ensures Ascending({1, 2}) == [1, 2]
  {
    AscendingUnique({1, 2}, [1, 2]);
  }

  /** Setting a one-glyph text on texture 1 and then a one-glyph text on
      texture 2 places the second glyph after the stale range of the first:
      quad 1 of a one-quad array. */
  lemma StaleRangesOverflow(s: TextSprite, d1: Drawer, d2: Drawer)
    requires s.renderInfos == map[]
    requires |d1.glyphs| == 1 && d1.glyphs[0].texture == 1
    requires |d2.glyphs| == 1 && d2.glyphs[0].texture == 2
    ensures SetTextAsWritten(s, d1).TextSet?
    ensures SetTextAsWritten(SetTextAsWritten(s, d1).sprite, d2) == WritesOutOfBounds
  {
    OneGlyphRanges(s, d1, 1);
    StaleAssignment(SetTextAsWritten(s, d1).sprite.renderInfos, d2.glyphs);
  }

  // ---------------------------------------------------------------------
  // Clearing, stale flags, atlas events
  // ---------------------------------------------------------------------

  /** `Clear`: unregister from every atlas and drop the text. */
  function Clear(s: TextSprite): (r: Changed)
    ensures r.sprite.atlases == {} && r.sprite.renderInfos == map[]
    ensures r.sprite.vertices == [] && r.sprite.localVertices == []
    ensures r.sprite.color == s.color && r.sprite.localBounds == s.localBounds
    ensures r.sprite.boundingVolumeUpdated == s.boundingVolumeUpdated && r.sprite.verticesUpdated == s.verticesUpdated
    ensures Registered(multiset(s.atlases), r.calls) == multiset{}
  {
    var cleared := ClearAtlases(s);
    ClearAtlasesUnregisters(s);
    Changed(cleared.sprite.(localVertices := [], renderInfos := map[], vertices := []), cleared.calls)
  }

  /** `SetColor`: change the tint; the final vertices must be recomputed. */
  function SetColor(s: TextSprite, color: Color): (r: TextSprite)
    ensures r.color == color && !r.verticesUpdated
    ensures r.(color := s.color, verticesUpdated := s.verticesUpdated) == s
  {
    s.(color := color, verticesUpdated := false)
  }

  /** `InvalidateVertices`. */
  function InvalidateVertices(s: TextSprite): (r: TextSprite)
    ensures !r.verticesUpdated && r.(verticesUpdated := s.verticesUpdated) == s
  {
    s.(verticesUpdated := false)
  }

  /** `InvalidateNode`: the node moved, so the bounding volume and the final
      vertices must be recomputed. */
  function InvalidateNode(s: TextSprite): (r: TextSprite)
    ensures !r.boundingVolumeUpdated && !r.verticesUpdated
    ensures r.(boundingVolumeUpdated := s.boundingVolumeUpdated, verticesUpdated := s.verticesUpdated) == s
  {
    s.(boundingVolumeUpdated := false, verticesUpdated := false)
  }

  /** The outcome of an atlas callback: the sprite, the listener calls it
      made, the value returned to the atlas and whether an internal error
      was reported (debug builds only). */
  datatype Handled = Handled(sprite: TextSprite, calls: seq<ListenerCall>, result: bool, errorReported: bool)

  /** Debug builds check that the sprite listens to the atlas that called. */
  predicate Unexpected(s: TextSprite, atlas: AtlasId, debugChecks: bool) {
    debugChecks && atlas !in s.atlases
  }

  /** `OnAtlasCleared`: the sprite's quads may refer to lost atlas content,
      so the sprite is cleared; returns false. */
  function OnAtlasCleared(s: TextSprite, atlas: AtlasId, debugChecks: bool): (r: Handled)
    ensures !r.result
    ensures Unexpected(s, atlas, debugChecks) ==> r.errorReported && r.sprite == s && r.calls == []
    ensures !Unexpected(s, atlas, debugChecks) ==>
      && !r.errorReported
      && r.sprite.atlases == {} && r.sprite.renderInfos == map[] && r.sprite.vertices == []
      && r.sprite.localVertices == []
      && r.sprite.color == s.color && r.sprite.localBounds == s.localBounds
      && r.sprite.boundingVolumeUpdated == s.boundingVolumeUpdated && r.sprite.verticesUpdated == s.verticesUpdated
      && Registered(multiset(s.atlases), r.calls) == multiset{}
  {
    if Unexpected(s, atlas, debugChecks) then Handled(s, [], false, true)
    else
      var c := Clear(s);
      Handled(c.sprite, c.calls, false, false)
  }

  /** `OnAtlasReleased`: as `OnAtlasCleared`, with nothing returned. */
  function OnAtlasReleased(s: TextSprite, atlas: AtlasId, debugChecks: bool): (r: Handled)
    ensures Unexpected(s, atlas, debugChecks) ==> r.errorReported && r.sprite == s && r.calls == []
    ensures !Unexpected(s, atlas, debugChecks) ==>
      && !r.errorReported
      && r.sprite.atlases == {} && r.sprite.renderInfos == map[] && r.sprite.vertices == []
      && r.sprite.localVertices == []
      && r.sprite.color == s.color && r.sprite.localBounds == s.localBounds
      && r.sprite.boundingVolumeUpdated == s.boundingVolumeUpdated && r.sprite.verticesUpdated == s.verticesUpdated
      && Registered(multiset(s.atlases), r.calls) == multiset{}
  {
    if Unexpected(s, atlas, debugChecks) then Handled(s, [], false, true)
    else
      var c := Clear(s);
      Handled(c.sprite, c.calls, false, false)
  }

  /** Move the range of `oldLayer` to `newLayer`: erase the old entry, then
      insert the new one, which leaves an existing `newLayer` entry alone. */
  function Rekey(infos: RenderInfos, oldLayer: TextureId, newLayer: TextureId): (r: RenderInfos)
    requires oldLayer in infos
    ensures newLayer !in infos || newLayer == oldLayer ==>
      && r.Keys == infos.Keys - {oldLayer} + {newLayer}
      && r[newLayer] == infos[oldLayer]
      && forall t :: t in infos && t != oldLayer ==> r[t] == infos[t]
    ensures newLayer in infos && newLayer != oldLayer ==>
      && r.Keys == infos.Keys - {oldLayer}
      && forall t :: t in r ==> r[t] == infos[t]
  {
    var erased := infos - {oldLayer};
    if newLayer in erased then erased else erased[newLayer := infos[oldLayer]]
  }

  /** Moving a range to an unused texture and back restores the map. */
  lemma RekeyRoundTrip(infos: RenderInfos, oldLayer: TextureId, newLayer: TextureId)
    requires oldLayer in infos && newLayer !in infos
    ensures newLayer in Rekey(infos, oldLayer, newLayer)
    ensures Rekey(Rekey(infos, oldLayer, newLayer), newLayer, oldLayer) == infos
  {
    var there := Rekey(infos, oldLayer, newLayer);
    var back := Rekey(there, newLayer, oldLayer);
    assert back.Keys == infos.Keys;
  }

  /** Rescale the texture coordinates of vertices `[lo, lo + n)` from
      layer `oldLayer` to layer `newLayer`. */
  function RescaleUVs(vertices: seq<Vertex>, lo: nat, n: nat, oldLayer: TextureId, newLayer: TextureId): (r: seq<Vertex>)
    requires lo + n <= |vertices|
    ensures |r| == |vertices|
    ensures forall k :: 0 <= k < |r| ==>
      r[k] == if lo <= k < lo + n then vertices[k].(uv := Rescaled(vertices[k].uv, oldLayer, newLayer)) else vertices[k]
  {
    seq(|vertices|, k requires 0 <= k < |vertices| =>
      if lo <= k < lo + n then vertices[k].(uv := Rescaled(vertices[k].uv, oldLayer, newLayer)) else vertices[k])
  }

  /** The atlas layer change, rescaling the `4 * count` vertices from
      vertex `start` of the old layer's range. */
  function LayerChange(s: TextSprite, atlas: AtlasId, oldLayer: TextureId, newLayer: TextureId, debugChecks: bool,
                       start: nat): (r: Handled)
    requires oldLayer in s.renderInfos ==> start + s.renderInfos[oldLayer].count * 4 <= |s.vertices|
  {
    if Unexpected(s, atlas, debugChecks) then Handled(s, [], false, true)
    else if oldLayer !in s.renderInfos then Handled(s, [], true, false)
    else
      var indices := s.renderInfos[oldLayer];
      var vertices := RescaleUVs(s.vertices, start, indices.count * 4, oldLayer, newLayer);
      Handled(s.(vertices := vertices, renderInfos := Rekey(s.renderInfos, oldLayer, newLayer)), [], true, false)
  }

  /** `OnAtlasLayerChange`, corrected: the rescaled vertices are those of the
      old layer's quads, which start at vertex `first * 4` (see
      `OnAtlasLayerChangeAsWritten`). Returns true. */
  function OnAtlasLayerChange(s: TextSprite, atlas: AtlasId, oldLayer: TextureId, newLayer: TextureId, debugChecks: bool): (r: Handled)
    requires oldLayer in s.renderInfos ==> (s.renderInfos[oldLayer].first + s.renderInfos[oldLayer].count) * 4 <= |s.vertices|
    ensures Unexpected(s, atlas, debugChecks) ==> r.errorReported && !r.result && r.sprite == s
    ensures !Unexpected(s, atlas, debugChecks) ==> r.result && !r.errorReported && r.calls == []
    ensures !Unexpected(s, atlas, debugChecks) && oldLayer !in s.renderInfos ==> r.sprite == s
    ensures !Unexpected(s, atlas, debugChecks) && oldLayer in s.renderInfos ==>
      && r.sprite.renderInfos == Rekey(s.renderInfos, oldLayer, newLayer)
      && |r.sprite.vertices| == |s.vertices|
      && r.sprite.(vertices := s.vertices, renderInfos := s.renderInfos) == s
  {
    var start := if oldLayer in s.renderInfos then s.renderInfos[oldLayer].first * 4 else 0;
    LayerChange(s, atlas, oldLayer, newLayer, debugChecks, start)
  }

  /** `OnAtlasLayerChange` as the source writes it: the rescale starts at
      vertex `first` instead of vertex `first * 4`. */
  function OnAtlasLayerChangeAsWritten(s: TextSprite, atlas: AtlasId, oldLayer: TextureId, newLayer: TextureId, debugChecks: bool): (r: Handled)
    requires oldLayer in s.renderInfos ==> s.renderInfos[oldLayer].first + 4 * s.renderInfos[oldLayer].count <= |s.vertices|
    ensures Unexpected(s, atlas, debugChecks) ==> r.errorReported && !r.result && r.sprite == s
    ensures !Unexpected(s, atlas, debugChecks) ==> r.result && !r.errorReported && r.calls == []
    ensures !Unexpected(s, atlas, debugChecks) && oldLayer !in s.renderInfos ==> r.sprite == s
    ensures !Unexpected(s, atlas, debugChecks) && oldLayer in s.renderInfos ==>
      && r.sprite.renderInfos == Rekey(s.renderInfos, oldLayer, newLayer)
      && |r.sprite.vertices| == |s.vertices|
      && r.sprite.(vertices := s.vertices, renderInfos := s.renderInfos) == s
    ensures !Unexpected(s, atlas, debugChecks) && oldLayer in s.renderInfos ==>
      var first := s.renderInfos[oldLayer].first;
      var count := s.renderInfos[oldLayer].count;
      forall k :: 0 <= k < |r.sprite.vertices| ==>
        r.sprite.vertices[k] == if first <= k < first + 4 * count
          then s.vertices[k].(uv := Rescaled(s.vertices[k].uv, oldLayer, newLayer))
          else s.vertices[k]
  {
    var start := if oldLayer in s.renderInfos then s.renderInfos[oldLayer].first else 0;
    LayerChange(s, atlas, oldLayer, newLayer, debugChecks, start)
  }

  /** The corrected layer change rescales exactly the vertices of the old
      layer's quads and keeps every vertex's shade. */
  lemma LayerChangeRescalesOwnQuads(s: TextSprite, atlas: AtlasId, oldLayer: TextureId, newLayer: TextureId, k: nat)
    requires RangesFit(s) && oldLayer in s.renderInfos && !Unexpected(s, atlas, false) && k < |s.vertices|
    ensures var v := OnAtlasLayerChange(s, atlas, oldLayer, newLayer, false).sprite.vertices;
      var indices := s.renderInfos[oldLayer];
      && v[k].shade == s.vertices[k].shade
      && (InRange(k / 4, indices) ==> v[k].uv == Rescaled(s.vertices[k].uv, oldLayer, newLayer))
      && (!InRange(k / 4, indices) ==> v[k].uv == s.vertices[k].uv)
  {
  }

  /** The source's layer change, for a texture whose range does not start at
      quad 0, rescales vertex `first`, which belongs to an earlier quad, and
      leaves the last vertex of the texture's own quads unscaled. */
  lemma LayerChangeAsWrittenMissesQuads(s: TextSprite, atlas: AtlasId, oldLayer: TextureId, newLayer: TextureId)
    requires RangesFit(s) && oldLayer in s.renderInfos && !Unexpected(s, atlas, false)
    requires s.renderInfos[oldLayer].first > 0 && s.renderInfos[oldLayer].count > 0
    ensures var v := OnAtlasLayerChangeAsWritten(s, atlas, oldLayer, newLayer, false).sprite.vertices;
      var indices := s.renderInfos[oldLayer];
      var last := (indices.first + indices.count) * 4 - 1;
      && !InRange(indices.first / 4, indices)
      && v[indices.first].uv == Rescaled(s.vertices[indices.first].uv, oldLayer, newLayer)
      && InRange(last / 4, indices)
      && v[last].uv == s.vertices[last].uv
  {
  }

  // ---------------------------------------------------------------------
  // Copies
  // ---------------------------------------------------------------------

  /** The copy constructor: copy every field and register with each atlas
      of the copied set. */
  function CopyOf(s: TextSprite): (r: Changed)
    ensures r.sprite == s
    ensures Registered(multiset{}, r.calls) == multiset(s.atlases)
    ensures forall c :: c in r.calls ==> c.AddListener?
  {
    var order := Ascending(s.atlases);
    AdditionsRegister(multiset{}, order);
    AscendingMultiset(s.atlases);
    Changed(s, Additions(order))
  }

  /** The assignment operator as the source writes it: the final vertices
      are not copied and no listener call is made. */
  function AssignAsWritten(t: TextSprite, s: TextSprite): (r: TextSprite)
    ensures r.vertices == t.vertices
    ensures r.atlases == s.atlases && r.renderInfos == s.renderInfos && r.localVertices == s.localVertices
    ensures r.color == s.color && r.localBounds == s.localBounds
    ensures !r.boundingVolumeUpdated && !r.verticesUpdated
  {
    t.(atlases := s.atlases, color := s.color, renderInfos := s.renderInfos, localBounds := s.localBounds,
       localVertices := s.localVertices, boundingVolumeUpdated := false, verticesUpdated := false)
  }

  /** The assignment operator, corrected: unregister from the target's
      atlases, copy every field, register with the copied atlases. */
  function Assign(t: TextSprite, s: TextSprite): (r: Changed)
    ensures r.sprite == s.(boundingVolumeUpdated := false, verticesUpdated := false)
    ensures Registered(multiset(t.atlases), r.calls) == multiset(r.sprite.atlases)
  {
    var cleared := ClearAtlases(t);
    var copied := CopyOf(s);
    ClearAtlasesUnregisters(t);
    RegisteredAppend(multiset(t.atlases), cleared.calls, copied.calls);
    Changed(s.(boundingVolumeUpdated := false, verticesUpdated := false), cleared.calls + copied.calls)
  }

  /** After the source's assignment the sprite's registrations are those of
      the target's old atlases: the copied set is not listened to. */
  lemma AssignAsWrittenKeepsRegistrations(t: TextSprite, s: TextSprite)
    requires t.atlases != s.atlases
    ensures !ListensTo(multiset(t.atlases), AssignAsWritten(t, s))
  {
    var a :| (a in t.atlases && a !in s.atlases) || (a in s.atlases && a !in t.atlases);
    assert multiset(t.atlases)[a] != multiset(s.atlases)[a];
  }

  /** After the source's assignment onto a sprite with no text, a sprite
      with text has ranges past the end of the (old) final vertex array,
      which drawing reads. */
  lemma AssignAsWrittenLeavesVerticesShort(t: TextSprite, s: TextSprite, glyphs: seq<Glyph>)
    requires t.vertices == [] && Shows(s, glyphs) && |glyphs| > 0
    ensures !RangesFit(AssignAsWritten(t, s))
  {
    var g := glyphs[0].texture;
    GlyphTextureUsed(glyphs, 0);
    assert g in s.renderInfos;
  }

  /** The corrected assignment shows what its source shows. */
  lemma AssignShows(t: TextSprite, s: TextSprite, glyphs: seq<Glyph>)
    requires Shows(s, glyphs)
    ensures Shows(Assign(t, s).sprite, glyphs)
  {
    assert PlacedOf(Assign(t, s).sprite) == PlacedOf(s);
  }
}
